=== FILE: README.md ===
# cli — a functional model of the interface console core

`cli` is a curses console for bridging, recording and replaying byte streams
over TCP/UDP sockets, serial lines, files, external processes and memory
buffers. This project models its core in Dafny as pure functions over
immutable values and proves properties of that model:

- **Slot table** (`Table`): 256 nullable slots, each holding an interface
  or a link (a *tie* or an *exchange* between two slots), plus the selected
  slot. Covers `find_free_if_spot`, `cli_cmd_add`, `cli_add_line`, `cd`, and
  reloading an interface from its log file name.
- **Receive log** (`RxLog`, `Iface`): a per-interface offset index of
  unsigned 32-bit cumulative sums, starting at 0, plus a payload store.
  Frame `i` is `payload[off[i]..off[i+1]]`.
- **Forwarding** (`Forward`): the capture step and `cli_handle_rx`, which
  records a frame and forwards it through a selected exchange line. Also
  `cli_if_tx`, with auto-size, the 16382-byte cap, CR/LF suffixes, and the
  loopback record on file destinations. The mutual recursion of
  `HandleRx`/`IfTx` is proved to terminate because link endpoints are
  distinct.
- **rx command** (`RxCmd`): `cli_rx_modify` and the `- . + $ ^ >` cursor
  grammar, with C's signed 32-bit arithmetic written out.
- **Mode codec** (`Codec`): `cli_format` for plaintext, hex, octal, binary
  and the zlib alias, with a decoder and round-trip lemmas.
- **Configuration** (`Config`): the `if set key=value` tokeniser with a
  reference definition, type-mask gated dispatch, and the setters for
  type, devname, buffer size and modes.
- **Interpreter** (`Interpret`, `Text`):
  - prefix dispatch in `cli_command` and `cli_interpret`;
  - the flag toggles of `cli_interpret_if`;
  - `cli_stripchars`;
  - the `sscanf` conversions the commands use.
- **Line editor** (`Editor`): the `cli_ui` doubly linked list, modelled as
  a character sequence with a cursor. Covers insert, backspace,
  left/right/home/end, transpose, replace, and history bounds.

Files are byte sequences, and the log header is an abstract record (the
saved metadata). Operating-system calls are parameters: the success of
`socket` and `connect` is a boolean, and the address `inet_pton` yields is
an optional IPv4 address. History lines fetched from disk are an `Option`
parameter.

## Model

| member | source | states |
|---|---|---|
| Base.BufferConstantsOrdered | clibase.h:16-18 | minimum 8 < default 256 < maximum 16384, and the slot table has 256 entries |
| Base.FlagsAreDistinctBits | clibase.h:20-25 | each of the six flags is a single bit, and no two flags share a bit |
| Base.TypeBit | clibase.h:27-33 | every interface type is a single bit within the low six bits |
| Base.TypeBitsDistinct | clibase.h:27-33 | two types share a bit exactly when they are the same type |
| Base.IsFdType | clibase.h:42 | the descriptor mask matches exactly tcp, udp and serial |
| Base.IsIpType | clibase.h:41 | the IP mask matches exactly tcp and udp |
| Base.IsDevnameType | clibase.h:40 | the devname mask matches exactly exec, file and serial |
| Codec.Format | cli.c:126-145 | the unit size is 1/2/3/8 by mode, plaintext is the byte itself, and zlib renders exactly like hex |
| Codec.FormatRoundTrip | cli.c:126-160 | decoding a formatted byte in any mode gives back that byte |
| Codec.HexRoundTrip | cli.c:137-141 | the two hex digits carry the high and low nibble, so hex and zlib decode back to the byte |
| Codec.OctRoundTrip | cli.c:142-145 | three octal digits decode back to the byte |
| Codec.BinDigitsValue | cli.c:146-155 | n binary digits of a value below 2^n read back as that value |
| Codec.Encode | cli.c:547-550 | the intended text of a frame: unit size times the input length, with each byte in its intended rendering (the corrected half of the first two Findings rows) |
| Codec.EncodeAsWritten | cli.c:547-550 | the loop writes unit size bytes per input byte, each the `ret[0..size)` of `cli_format` as written |
| Codec.EncodeAsWrittenAgrees | cli.c:128-155 | outside binary mode, a frame of bytes below 0x80 is written exactly as the intended encoder renders it |
| Codec.EncodeRoundTrip | cli.c:547-550 | decoding an encoded byte run gives back the run, in every mode |
| Codec.FormatExamples | cli.c:139-154 | "0a" for 0x0a in hex, "011" for 9 in octal, eight digits for 1 in binary |
| Codec.FormatAsWritten | cli.c:126-160 | the C buffer is 8 bytes and the reported size is the unit size of the mode |
| Codec.BinaryAsWrittenLosesBits | cli.c:146-155 | as written, binary mode leaves only the last bit in ret[0], so 0x00 and 0x02 render the same |
| Codec.SignedFormatOverflows | cli.c:128-144 | as written, a byte of 0x80 or more sign-extends: "%02x" writes 8 digits into the 8-byte buffer and "%03o" writes 11; bytes below 0x80 render correctly |
| RxLog.Append | cli.c:292-300 | one offset (base + frame length) is appended, and the frame is appended to the payload |
| RxLog.LogRoundTrip | cli.c:453-465 | after appending frames from the initial [0] index, reading frame i gives exactly frame i; offsets never decrease and rise exactly at non-empty frames |
| RxLog.OffsetWraps | cli.c:294 | the 32-bit cumulative offset wraps below its previous value once the total reaches 2^32 |
| Iface.Fresh | cli.c:182-209 | a new interface is an active file on stdout with buffer 256, flags 0, zero counters and an empty log |
| Iface.Record | cli.c:292-300 | rx_count grows by 1, and rx_size and the offset index by the frame length modulo 2^32; rx and rx_last are untouched, the frame is logged, and log consistency is kept |
| Iface.RxModify | cli.c:406-416 | the new rx is the target clamped into [0, rx_count], and rx_last is the previous rx |
| Iface.Save | cli.c:918-933 | the header record becomes the current metadata, and nothing else changes |
| Iface.Reloaded | cli.c:876-880 | a reloaded interface takes the saved header with rx 0 and inactive; the log is carried over (the enclosing reload's truncation is not modelled) |
| Iface.ReloadAfterThreeFrames | cli.c:292-300 | after three frames, save and reload, the counters reflect the three frames and the cursor is reset; the carried-over log still reads back the three frames |
| Table.FindFree | cli.c:39-47 | the result is the lowest empty slot, or the table size when none is empty |
| Table.LowestFreeUnique | cli.c:39-47 | find_free agrees with the declarative "lowest free" predicate |
| Table.Add | cli.c:173-223 | the fresh interface goes into the lowest empty slot and is selected; a full table is unchanged; validity is kept |
| Table.AddSelectsNewInterface | cli.c:203-217 | after add, the selected slot was empty before and now holds Fresh(slot) |
| Table.Init | cli.c:635-671 | the initial context has interface 0, fresh and selected |
| Table.AddLine | cli.c:225-254 | success exactly when both endpoints are occupied, they differ, and a slot is free; the link goes into the lowest free slot; on failure nothing changes |
| Table.LinkEndpointMayBeLink | cli.c:229-231 | a link may be created whose endpoint is itself a link |
| Table.Select | cli.c:387-404 | selection succeeds exactly on an occupied slot and changes only the selection |
| Table.ParseLogFileName | cli.c:869-871 | an accepted name starts "if", has a hex slot number below 256 and a non-empty suffix |
| Table.ReloadIface | cli.c:860-889 | an "offset" file name reloads that slot from disk; a "b…" suffix or a bad name leaves the table unchanged |
| Table.LowerHexChar | cli.c:198 | the digit printed for a value below 16 is a hex digit of that value, and is neither '-' nor white space |
| Table.ParseLogFileNameRoundTrip | cli.c:198-211 | every name "if%02x-word" that add writes, for a slot below 256 and a non-empty word without blanks, parses back to that slot and word |
| Table.ParseExample | cli.c:869 | "if0a-offset" and "if0a-buffer" both name slot 10, with words "offset" and "buffer" |
| Table.ReloadExample | cli.c:869-883 | reloading "if0a-offset" fills slot 10, and "if0a-buffer" changes nothing |
| Table.PolledSlots | cli.c:339-347 | the polled set is exactly the active interfaces of tcp, udp or serial type |
| Forward.SameShapeKeepsValid | cli.c:229-231 | changing interface contents but not which slots hold what keeps link validity and armed status |
| Forward.RecordAt | cli.c:288-300 | recording at slot k changes only slot k, by Iface.Record |
| Forward.Strlen | cli.c:511-519 | the length is the largest i up to size with buf[i-1] non-zero, and all later bytes are zero |
| Forward.BodyLength | cli.c:525-533 | with AS in plaintext the body is strlen of the buffer (scanned from min(buffer_size, 16384)) capped at 16382, so the bytes after it are zero; otherwise it is buffer_size capped at 16382 |
| Forward.StrlenUnique | cli.c:511-519 | strlen is the unique position whose preceding byte is non-zero and after which every byte up to the size is zero |
| Forward.AutoSizeSendsText | cli.c:525-533 | with auto-size, a text shorter than the cap followed by zeros is sent at exactly its length |
| Forward.Suffix | cli.c:534-541 | at most two suffix bytes, CR then LF, by flag |
| Forward.Frame | cli.c:525-541 | the transmitted bytes are the body followed by the suffix, and the buffer gets the suffix written in place |
| Forward.IfTx | cli.c:521-568 | a file destination prints the frame in rx mode and records it as a loopback frame, and when it arms no exchange that one line and that one record are the whole effect; tcp/udp/serial send it; a link slot does nothing; validity is kept |
| Forward.HandleRx | cli.c:288-318 | the receiving interface records the frame; with no armed exchange nothing else happens |
| Forward.ForwardToFile | cli.c:309-317 | an armed exchange forwards to a file destination, which prints the frame and records it |
| Forward.ForwardToDevice | cli.c:309-317 | an armed exchange forwards to a tcp/udp/serial destination as one Sent output |
| Forward.TieNeverForwards | cli.c:311 | with a tie selected, a received frame is only recorded, never forwarded |
| Forward.FileOutputUsesRxMode | cli.c:548 | a file destination formats outgoing bytes with its rx mode, not its tx mode |
| Forward.CaptureFrame | cli.c:362-378 | a positive read is recorded and bumps irq only for async interfaces; zero or negative reads change nothing |
| Forward.TxCommand | cli.c:500-509 | tx sends through the selected interface, or through a selected tie's tx end; an exchange does nothing |
| RxCmd.ToInt32 | cli.c:479-486 | the value is reduced mod 2^32 into the signed 32-bit range, and in-range values are unchanged |
| RxCmd.RxTarget | cli.c:423-428 | rx acts on the selected interface or on a selected tie's rx end, never on an exchange |
| RxCmd.Move | cli.c:474-493 | `$` and `^` set rx without touching rx_last; every other move clamps into rx_count and remembers the old rx |
| RxCmd.Navigate | cli.c:445-493 | skips blanks, shows the current frame unless '>' or at the end, then applies the move named by the character after an optional '>', with the count read after it; consistency is kept |
| RxCmd.NavigateJumps | cli.c:447-489 | "rx $" jumps to rx_count and "rx ^" to 0, leaving rx_last; "rx >$" jumps without showing a frame |
| RxCmd.NavigateStep | cli.c:490-492 | plain "rx" moves one frame forward, stopping at rx_count, and remembers the old rx |
| RxCmd.NavigateBack | cli.c:475-480 | "rx -" moves one frame back, stopping at 0, and remembers the old rx |
| RxCmd.NavigatePlus | cli.c:482-487 | "rx +n" moves n frames forward, stopping at rx_count |
| RxCmd.NavigateMinus | cli.c:475-480 | "rx -n" moves n frames back, stopping at 0 |
| RxCmd.Rx | cli.c:418-498 | '?' reports the counters; navigation is refused with zero frames; an exchange is refused |
| RxCmd.BackFromStartStays | cli.c:475-480 | "-x" from rx 0 stays at 0 |
| RxCmd.ForwardClamps | cli.c:482-487 | "+x" lands on rx + x clamped at rx_count |
| RxCmd.ForwardPastHalfWraps | cli.c:486 | "+x" with rx + x = 2^31 wraps to a negative int and lands on 0 |
| RxCmd.StepsSaturate | cli.c:490-492 | n plain "rx" steps advance n frames and then stop at rx_count |
| RxCmd.DotTwiceRestores | cli.c:481 | "rx ." twice returns to the starting cursor |
| RxCmd.NavigateShowsRecordedFrame | cli.c:447-468 | the frame shown is the one recorded at the cursor |
| Config.ScanValue | cli_cmd.c:176-189 | after '=', the value is the non-blank, non-'=' characters, truncated to the cap |
| Config.ScanName | cli_cmd.c:168-189 | before '=', the name is the non-blank characters, and the rest is scanned as the value |
| Config.TokeniseMatchesReference | cli_cmd.c:164-192 | the character loop equals the reference: the var and val are the cleaned text before and after the first '=', after the first 't' |
| Config.ValueOverflowsByOne | cli_cmd.c:178 | as written, a long value fills 257 characters of a 256-byte buffer; the corrected tokeniser keeps 256 |
| Config.SetXmode | cli_cmd.c:133-151 | a value starting with z gives zlib; a, pt or plaintext gives plaintext; h or x gives hex; b gives binary; any other value, including one starting with p but not pt or plaintext, keeps the mode, so octal is never chosen |
| Config.ModeNamesRoundTrip | cli_cmd.c:133-151 | each mode's name parses back to that mode, except octal, which keeps the previous mode |
| Config.SetBuffersize | cli_cmd.c:73-83 | the size is at least 8; values below 8 become 256; larger values are kept |
| Config.SetType | cli_cmd.c:12-71 | prefixes tried in order tcp/udp, mem, fil, bin or exec, serial; each gives its exact record: tcp/udp at 127.0.0.1:80, inactive when socket fails; memory inactive without a handle; file on stdout; exec "/usr/bin/cat" and serial "/dev/ttyS0", both inactive; an unknown value changes nothing |
| Config.SetTypeByName | cli_cmd.c:12-71 | "memory", "file", "exec" and "serial" reach their own branch and set that type with its defaults |
| Config.SetDevname | cli_cmd.c:107-131 | the name is stored; a file closes the old handle unless it was stdout, and opens stdout or the named file |
| Config.SetDevnameBackToStdout | cli_cmd.c:107-131 | naming a file then "stdout" returns a file interface to stdout with every other field restored, closing the file exactly when the first name was not stdout |
| Config.SetTypeGatesDispatch | cli_cmd.c:12-71 | after a successful type change, ipaddr and ipport are accepted exactly for tcp/udp, addr exactly for mem, and devname exactly for the other types |
| Config.SetBuffersizeFixedPoint | cli_cmd.c:73-83 | setting the printed stored size again stores the same size |
| Config.Dispatch | cli_cmd.c:194-220 | devname only for exec/file/serial, ipaddr/ipport only for tcp/udp, addr only for memory |
| Config.DispatchGated | cli_cmd.c:197-219 | each gated key selects its setter exactly when the type is in the key's mask |
| Config.DispatchByPrefix | cli_cmd.c:197-219 | type, buffer, rxmode and txmode select their setters for any interface type |
| Config.Apply | cli_cmd.c:194-220 | each key stores its setter's value (devname, inet_pton's address or BadAddress, atoi mod 2^16 as the port, type, buffer size, rx or tx mode; addr does nothing); id, flags and the counters never change; type and active change only under type, the handle only under devname or type; an unknown key changes nothing |
| Config.IfSet | cli_cmd.c:153-226 | the header is always saved; an empty var or val changes no field; only the selected slot changes |
| Text.FirstMatch | cli_cmd.c:241-252 | the first option whose name prefixes the buffer, and None exactly when none does |
| Text.Command | cli_cmd.c:236-253 | returns 1 exactly when some option name prefixes the buffer |
| Text.ScanShowRoundTrip | cli.c:392 | "%d" reads back a printed number and its negation |
| Text.ScanTwo | cli.c:279 | "%d %d" succeeds exactly when two conversions in a row succeed |
| Text.KeptIdentity | cli.c:891-907 | stripping keeps a line unchanged exactly when it has no control characters |
| Text.Strip | cli.c:891-907 | the first 256 characters become their non-control characters then zeros; the rest is untouched |
| Interpret.FlushPayload | cli.c:959-966 | flush sends CR, LF and zeros |
| Interpret.Cd | cli.c:387-404 | cd with a number naming an occupied slot selects exactly that slot; no number, an empty slot or an out-of-range number changes nothing |
| Interpret.Link | cli.c:256-286 | two parsed in-range numbers create the link through add_line; anything else changes nothing; the selection and validity are kept |
| Interpret.SaveSelected | cli.c:918-933 | save writes the header of the selected interface, and does nothing on a link |
| Interpret.RunOption | cli.c:968-1038 | each option runs its own command: cd, if set, add, save, tie, ex, rx and flush change the context as those commands do; presentation-only options change nothing; only flush produces output |
| Interpret.Classify | cli.c:968-1038 | each branch is taken exactly when every earlier test fails and its own succeeds: quit, echo, tx:, tx<, tx, the empty line, then the first option whose name prefixes the line, else unclaimed |
| Interpret.Interpret | cli.c:968-1038 | quit, echo, tx: (the rest of the line), tx (after its blanks) and the options run their commands; tx< and the empty line do nothing; returns 1 exactly when no command claims the line, and then changes nothing |
| Interpret.InterpretRunsAdd | cli.c:1019-1031 | the line "add" runs the add command and nothing else |
| Interpret.InterpretCdSelects | cli.c:387-404 | "cd" followed by the number of an occupied slot selects that slot and changes nothing else |
| Interpret.InterpretFlushTransmits | cli.c:959-966 | "flush" transmits CR, LF and zeros through the selection |
| Interpret.InterpretIf | cli.c:1062-1102 | a flag name toggles that flag on the selected interface unless followed by '?'; on tcp/udp any other line sets `active` by connect (made active when the connection succeeds) or close (made inactive) and otherwise changes nothing; on other types such lines change nothing; links are left alone |
| Interpret.IfMeta | cli.c:1066-1100 | only flags and activity change; a toggle word flips its flag unless followed by '?'; on tcp/udp, connect adds the connection's success to `active` and close clears it; on other types a non-toggle line changes nothing |
| Interpret.ToggleTwiceRestores | cli.c:1062-1102 | toggling the same flag twice restores the context |
| Interpret.AsyncIsNotAs | cli.c:1067-1078 | "async" toggles async and "as" toggles AS, because async is matched first |
| Interpret.Execute | cli.c:1120-1123 | an unclaimed line goes to the if-commands, and a claimed line is run once |
| Interpret.QuitClaimsEveryQLine | cli.c:991-994 | every line starting with q sets the exiting state |
| Editor.Init | cliui.c:9-30 | the editor starts empty with the cursor at the start and the history position past the newest line |
| Editor.FirstUpRecallsNewest | cli.c:659-660 | with the history position set to hsize at start-up, the first up arrow shows the newest line and the down arrow does nothing |
| Editor.Insert | cliui.c:186-214 | the key goes after the cursor; input_len and cpos grow by 1; hwm covers input_len |
| Editor.Backspace | cliui.c:168-185 | at the start nothing changes; otherwise the character before the cursor is removed |
| Editor.Left | cliui.c:55-66 | returns 0 and changes nothing at the start; otherwise moves one left and decrements cpos |
| Editor.Right | cliui.c:68-87 | returns 0 and changes nothing at the end; otherwise moves one right and increments cpos |
| Editor.HomeReachesStart | cliui.c:224-226 | home reaches the start with cpos 0 |
| Editor.EndReachesEnd | cliui.c:221-223 | end reaches the end of the line with cpos at its length |
| Editor.Printable | cliui.c:89-134 | replace keeps at most n characters, all of them printable |
| Editor.PrintableKeepsLine | cliui.c:89-134 | an all-printable line is kept in full and in order |
| Editor.Replace | cliui.c:89-135 | the text becomes the printable part of the source, the cursor lands at the end, and hwm never decreases |
| Editor.HistoryPrev | cliui.c:150-161 | hoffset moves down by one, but never below 0 |
| Editor.HistoryNext | cliui.c:137-148 | hoffset moves up by one, but never beyond hsize |
| Editor.Transpose | cliui.c:32-53 | the line is copied into cmd and zero-padded; the list empties with the cursor reset |
| Editor.TransposeAsWritten | cliui.c:49-52 | as written, a cursor on a node is left dangling and a null cursor stays null; apart from the cursor the result is the corrected transpose |
| Editor.TransposeLeavesDanglingCursor | cliui.c:49-52 | as written, a following backspace or left dereferences the freed cursor; the corrected version never does |
| Editor.HandleKey | cliui.c:163-236 | an unhandled non-printable key changes nothing, and a printable key is inserted |
| Editor.BackspaceUndoesInsert | cliui.c:168-214 | backspace after insert restores the editor, except that hwm keeps its high-water mark |
| Editor.LeftRightInverse | cliui.c:55-87 | a successful left followed by right, or right followed by left, restores the editor |

## Left out

- Threads, mutexes and the `select`/`read` loop of `cli_rx_interrupt` are left out as concurrency. Only the per-frame step is modelled (`Forward.CaptureFrame`), along with the polled set (`Table.PolledSlots`).
- Curses output is left out as presentation. This covers `cli_print_*`, `cli_print_format_mode` (displaying a frame), echo printing, `cli_ui_draw_cmd`, `cli_ui_capture`, and `ls`/`session`/`history`/`cwd`/`clear`/`load`. The model records what would be printed as `Printed` outputs or not at all.
- Sockets and OS calls are parameters, because they are foreign calls. `socket` success, `inet_pton` and `connect` success are the `socketOk`, `pton` and `connectOk` parameters. `getpid`/`rand` session ids, `mkdir` and `symlink` are not modelled.
- `fopen` failure is not modelled. `Config.SetDevname` always obtains a handle.
- The struct-as-header `fwrite`/`fread` is an abstract saved record, because it writes pointers to disk.
- Iface.Reloaded: keeps the offset index. `cli_ctx_reload` reopens `ifNN-offset` with "wb+" after reloading (cli.c:836), which truncates the index and its header, so in the program frames recorded before a whole reload cannot be read back (cli.c:455-461 then reads past the end of the file).
- Iface.Fresh: saves a header with offset index 0. C writes the header at cli.c:206 before it sets `rx_offsetpos` to 0 at cli.c:208, so the saved value is uninitialised.
- Config.IfSet: tokenises with the corrected 256-character cap (`Config.TokeniseMatchesReference`). C writes a 257th character into `val` (cli_cmd.c:178, the `Config.ValueOverflowsByOne` finding).
- Forward.IfTx: a file interface prints the intended rendering `Codec.Encode`, the corrected half of the first two Findings rows. The program writes `Codec.EncodeAsWritten`, which differs in binary mode (byte 0x02 gives "0" and seven NULs) and for bytes of 0x80 or more in hex, zlib and octal; `Codec.EncodeAsWrittenAgrees` gives the inputs on which they coincide. `Forward.ForwardToFile` inherits this.
- The directory walk of `cli_ctx_reload`, `cli_write_ctx`, the history file I/O and readcmd's history write are file I/O. Editor history lines are supplied as a parameter.
- cli_wrapper.c (the libarchive wrapper) is not part of this model.
- Interface type changes do not close the previously open handle (cli_cmd.c:12-71). The model follows the code, not the documented "type change closes the old handle".
- A zero-length or failing read does not deactivate the interface in the code (cli.c:364). The model follows the code.
- In C, the socket address (`struct sockaddr_in sock`) and devname share a union (clibase.h:84-87), so the `memset` of the address in a tcp/udp type change (cli_cmd.c:19, 33) clobbers devname. The model keeps separate fields.
- Links hold slot indices rather than pointers. The two agree on reload: `cli_ctx_reload_iface` reads a saved interface into the existing struct of an occupied slot (cli.c:872-878), so a pointer to it sees the reloaded interface, and `cli_ctx_reload` frees every slot, links included, before it reloads (cli.c:814-817, 775-800).
- Table.Select: `cd` does not bounds-check its index (cli.c:395), which is undefined behaviour in C. The model requires the index to be within the table.
- Table.AddLine: tie/ex endpoint indices are not bounds-checked in C (cli.c:229-230). The model requires them to be within the table.
- Interpret.Cd: an out-of-range number is refused rather than read out of bounds.
- Table.Add: C leaves rxmode and txmode uninitialised. The model uses plaintext, the enum value 0.
- Config.IfSet: with a tie or exchange selected, C reinterprets link memory as an interface. The model reports NotAnInterface. The same applies to save (`Interpret.SaveSelected`) and to the flag toggles (`Interpret.InterpretIf`), which leave a link alone.
- With an exchange selected, `cli_cmd_tx` passes the link to `cli_if_tx`, whose header test fails (cli.c:527, 563-565), so C does nothing either; `Forward.TxCommand` matches this.
- RxCmd.Rx: with an exchange selected, C reinterprets the link. The model reports NotAnInterface.
- RxCmd.RxTarget: a tie whose rx end is itself a link is refused with NotAnInterface. C follows the pointer and reads the link's memory as rx, rx_count and rx_size (cli.c:427-433). `RxCmd.Rx` refuses the same case.
- Table.ParseLogFileName: `sscanf`'s `%02x` also skips leading white space and accepts a sign, so C reads "if 5-offset" and "if+5-offset" as slot 5. The model rejects such names, which `cli_cmd_add` never writes.
- Forward.CaptureFrame: requires the read length to be at most the 16384-byte capture buffer. A `buffer_size` above 16384 makes `read` overflow the static buffer in C.
- Forward.BodyLength: `cli_strlen` scans from `buffer_size`, and for sizes above 16384 that reads past the command buffer. The model scans from min(buffer_size, 16384).
- Editor.Transpose: C overflows `cmd` when the line is longer than 256 characters. The model keeps the first 256.
- Text.ScanInt: integer overflow inside `sscanf("%d")` and `atoi` is undefined behaviour. The model reads an unbounded integer; `RxCmd` then wraps it explicitly with `ToInt32`.
- Text.ScanInt: `sscanf` accepts a leading '+' and other locale forms; the model reads an optional '-' or '+' and decimal digits.
- Iface.Record: rx_count is an unbounded counter, not a 32-bit one, so it does not wrap after 2^32 frames. rx_size and the offset index do wrap at 2^32 (`RxLog.OffsetWraps`).
- RxCmd.StepsSaturate requires rx_count below 2^31 - 1, because at 2^31 - 1 the step rx + 1 wraps.
- Config.SetType: the zero-filled `sock` struct is represented only by the address and port it sets.

## Findings

| source | as written | input that shows it | evidently intended | confidence | as-written member | corrected member |
|---|---|---|---|---|---|---|
| cli.c:146-155 | every binary digit is written to `ret[0]`, so only the lowest bit survives | byte 0x01 gives "1" followed by seven NULs; 0x00 and 0x02 render the same | eight digits `ret[0..7]`, most significant first | high; not executed | Codec.BinaryAsWrittenLosesBits | Codec.FormatRoundTrip |
| cli.c:128-144 | `byte` is a signed `char`, so "%02x"/"%03o" sign-extend and overflow the 8-byte `ret` | byte 0x80 gives "ffffff80" (8 digits plus NUL) and "37777777600" | format the byte as unsigned: 2 hex or 3 octal digits | high; not executed | Codec.SignedFormatOverflows | Codec.FormatRoundTrip |
| cli_cmd.c:178 | the value guard `lpos > 256` lets lpos reach 256 before writing, so `val` takes 257 characters | an `if set` line whose value has more than 256 non-blank characters | at most 256 characters in the 256-byte `val` | high; not executed | Config.ValueOverflowsByOne | Config.TokeniseMatchesReference |
| cliui.c:49-52 | transpose frees every node but leaves `cur` pointing at a freed node | any non-empty line with the cursor after a character, then backspace or left | reset `cur` to NULL with the list | high; not executed | Editor.TransposeLeavesDanglingCursor | Editor.Transpose |

=== FILE: base.dfy ===
/**
 Constants, enumerations and bit masks shared by the whole console: buffer sizes,
 interface types with their single-bit encodings, the type masks that gate
 configuration and polling, the per-interface flag bits and the encoding modes.
 */
module Base {

  /** One byte as stored in a receive log or written to a transport. */
  type Byte = b: int | 0 <= b < 256

  /** Largest frame buffer (the static receive buffer and the command buffer). */
  const MaxBuffer: nat := 16384
  /** Smallest buffer size `if set buffer` accepts. */
  const MinBuffer: nat := 8
  /** Default buffer size, also the number of slots in the interface table. */
  const DefaultBuffer: nat := 256
  /** Number of slots in the interface table. */
  const TableSize: nat := DefaultBuffer

  /** Unsigned 32-bit range used by the log offsets and byte counters. */
  const Word: nat := 0x1_0000_0000

  lemma BufferConstantsOrdered()
    ensures MinBuffer < DefaultBuffer < MaxBuffer
    ensures TableSize == 256
  {
  }

  /** Per-interface and console flag bits. */
  const FlagEcho: bv32 := 0x01
  const FlagAsync: bv32 := 0x02
  const FlagSilent: bv32 := 0x04
  const FlagAlf: bv32 := 0x08
  const FlagAcr: bv32 := 0x10
  const FlagAs: bv32 := 0x20

  const AllFlags: seq<bv32> := [FlagEcho, FlagAsync, FlagSilent, FlagAlf, FlagAcr, FlagAs]

  predicate SingleBit(b: bv32) {
    b != 0 && b & (b - 1) == 0
  }

  /** Every flag is one bit and no two flags share a bit. */
  lemma FlagsAreDistinctBits()
    ensures forall i :: 0 <= i < |AllFlags| ==> SingleBit(AllFlags[i])
    ensures forall i, j :: 0 <= i < j < |AllFlags| ==> AllFlags[i] & AllFlags[j] == 0
  {
  }

  datatype IfType = Tcp | Udp | Exec | Memory | File | Serial

  /** The enumeration value of each interface type: a distinct single bit. */
  function TypeBit(t: IfType): (b: bv32)
    ensures SingleBit(b)
    ensures b & 0x3f == b
  {
    match t
    case Tcp => 0x01
    case Udp => 0x02
    case Exec => 0x04
    case Memory => 0x08
    case File => 0x10
    case Serial => 0x20
  }

  lemma TypeBitsDistinct(t: IfType, u: IfType)
    ensures t != u <==> TypeBit(t) & TypeBit(u) == 0
  {
  }

  /** Types whose device name may be set. */
  const DevnameTypes: bv32 := 0x34
  /** Types carrying a socket address. */
  const IpTypes: bv32 := 0x03
  /** Types with a pollable file descriptor. */
  const FdTypes: bv32 := 0x23

  predicate InMask(t: IfType, mask: bv32) {
    TypeBit(t) & mask != 0
  }

  /** The capture loop polls an interface only when this holds of its type. */
  predicate IsFdType(t: IfType)
    ensures IsFdType(t) <==> t == Tcp || t == Udp || t == Serial
  {
    InMask(t, FdTypes)
  }

  predicate IsIpType(t: IfType)
    ensures IsIpType(t) <==> t == Tcp || t == Udp
  {
    InMask(t, IpTypes)
  }

  predicate IsDevnameType(t: IfType)
    ensures IsDevnameType(t) <==> t == Exec || t == File || t == Serial
  {
    InMask(t, DevnameTypes)
  }

  /** Encoding modes, in enumeration order (plaintext is 0). */
  datatype Mode = Plaintext | Hex | Octal | Binary | Z
}

=== FILE: codec.dfy ===
/**
 The mode codec (`cli_format`): how one byte is rendered in each encoding mode
 when a file-type interface writes its output. `Format` is the intended
 behaviour and is what the rest of the model uses; `FormatAsWritten` keeps the
 source's rendering, with its binary-mode and signed-char defects, for the
 lemmas that exhibit them.
 */
module Codec {
  import opened Wrappers
  import opened Base

  const Ascii0: Byte := 48

  function HexDigit(v: nat): (c: Byte)
    requires v < 16
  {
    if v < 10 then Ascii0 + v else 87 + v
  }

  function HexValue(c: Byte): Option<nat> {
    if 48 <= c <= 57 then Some(c - 48)
    else if 97 <= c <= 102 then Some(c - 87)
    else None
  }

  /** Two lowercase hexadecimal digits, `%02x` of a value below 256. */
  function Hex2(v: nat): seq<Byte>
    requires v < 256
  {
    [HexDigit(v / 16), HexDigit(v % 16)]
  }

  /** Three octal digits, `%03o` of a value below 512. */
  function Oct3(v: nat): seq<Byte>
    requires v < 512
  {
    [Ascii0 + v / 64, Ascii0 + (v / 8) % 8, Ascii0 + v % 8]
  }

  /** The `n` low bits of `v` as ASCII digits, most significant first. */
  function BinDigits(v: nat, n: nat): (d: seq<Byte>)
    ensures |d| == n
  {
    if n == 0 then [] else BinDigits(v / 2, n - 1) + [Ascii0 + v % 2]
  }

  /** The number of bytes `cli_format` reports through `*size` for each mode. */
  function UnitSize(m: Mode): nat {
    match m
    case Plaintext => 1
    case Hex => 2
    case Z => 2
    case Octal => 3
    case Binary => 8
  }

  /** Rendering of one byte (bytes taken as unsigned). */
  function Format(m: Mode, b: Byte): (r: seq<Byte>)
    ensures |r| == UnitSize(m)
    ensures m == Plaintext ==> r == [b]
    ensures m == Z || m == Hex ==> r == Hex2(b)
  {
    match m
    case Plaintext => [b]
    case Hex => Hex2(b)
    case Z => Hex2(b)
    case Octal => Oct3(b)
    case Binary => BinDigits(b, 8)
  }

  function Pow2(n: nat): (p: nat)
    ensures p > 0
  {
    if n == 0 then 1 else 2 * Pow2(n - 1)
  }

  function BitsValue(s: seq<Byte>): Option<nat> {
    if |s| == 0 then Some(0)
    else if s[|s| - 1] != 48 && s[|s| - 1] != 49 then None
    else
      match BitsValue(s[..|s| - 1])
      case None => None
      case Some(v) => Some(2 * v + (s[|s| - 1] - 48))
  }

  function OctValue(c: Byte): Option<nat> {
    if 48 <= c <= 55 then Some(c - 48) else None
  }

  /** Reads back one rendered byte; the inverse of `Format`. */
  function DecodeUnit(m: Mode, s: seq<Byte>): Option<Byte> {
    if |s| != UnitSize(m) then None
    else
      match m
      case Plaintext => Some(s[0])
      case Octal =>
        (match (OctValue(s[0]), OctValue(s[1]), OctValue(s[2]))
         case (Some(a), Some(b), Some(c)) =>
           if a * 64 + b * 8 + c < 256 then Some(a * 64 + b * 8 + c) else None
         case _ => None)
      case Binary =>
        (match BitsValue(s)
         case Some(v) => if v < 256 then Some(v) else None
         case None => None)
      case _ =>
        (match (HexValue(s[0]), HexValue(s[1]))
         case (Some(a), Some(b)) => Some(a * 16 + b)
         case _ => None)
  }

  lemma {:induction false} BinDigitsValue(v: nat, n: nat)
    requires v < Pow2(n)
    ensures BitsValue(BinDigits(v, n)) == Some(v)
  {
    if n > 0 {
      var d := BinDigits(v, n);
      assert d[..|d| - 1] == BinDigits(v / 2, n - 1);
      BinDigitsValue(v / 2, n - 1);
    }
  }

  /** Every mode renders a byte so that it can be read back exactly. */
  lemma FormatRoundTrip(m: Mode, b: Byte)
    ensures DecodeUnit(m, Format(m, b)) == Some(b)
  {
    match m
    case Binary =>
      assert Pow2(8) == 256;
      BinDigitsValue(b, 8);
    case Octal => OctRoundTrip(b);
    case Plaintext =>
    case _ => HexRoundTrip(b);
  }

  lemma HexRoundTrip(b: Byte)
    ensures HexValue(Hex2(b)[0]) == Some(b / 16)
    ensures HexValue(Hex2(b)[1]) == Some(b % 16)
    ensures DecodeUnit(Hex, Format(Hex, b)) == Some(b)
    ensures DecodeUnit(Z, Format(Z, b)) == Some(b)
  {
    var hi, lo := b / 16, b % 16;
    assert b == hi * 16 + lo;
  }

  lemma OctRoundTrip(b: Byte)
    ensures DecodeUnit(Octal, Format(Octal, b)) == Some(b)
  {
    var a, c, d := b / 64, (b / 8) % 8, b % 8;
    assert b / 8 == a * 8 + c;
    assert b == (b / 8) * 8 + d;
    assert b == a * 64 + c * 8 + d;
    var s := Format(Octal, b);
    assert OctValue(s[0]) == Some(a) && OctValue(s[1]) == Some(c) && OctValue(s[2]) == Some(d);
  }

  /**
   The intended text of a whole frame: `Format` of each byte in turn. This is
   what the model's file interfaces print; the loop over `cli_format` writes
   `WrittenAsWritten` instead (`EncodeAsWritten`).
   */
  function Encode(m: Mode, bs: seq<Byte>): (r: seq<Byte>)
    ensures |r| == UnitSize(m) * |bs|
  {
    if |bs| == 0 then []
    else
      var u := UnitSize(m);
      assert u * |bs| == u * (|bs| - 1) + u;
      Format(m, bs[0]) + Encode(m, bs[1..])
  }

  function DecodeAll(m: Mode, s: seq<Byte>): Option<seq<Byte>>
    decreases |s|
  {
    var u := UnitSize(m);
    if |s| == 0 then Some([])
    else if |s| < u then None
    else
      match (DecodeUnit(m, s[..u]), DecodeAll(m, s[u..]))
      case (Some(b), Some(rest)) => Some([b] + rest)
      case _ => None
  }

  /** Encoding a frame and decoding the text yields the frame, in every mode. */
  lemma {:induction false} EncodeRoundTrip(m: Mode, bs: seq<Byte>)
    ensures DecodeAll(m, Encode(m, bs)) == Some(bs)
  {
    if |bs| > 0 {
      var u := UnitSize(m);
      var s := Encode(m, bs);
      assert s[..u] == Format(m, bs[0]);
      assert s[u..] == Encode(m, bs[1..]);
      FormatRoundTrip(m, bs[0]);
      EncodeRoundTrip(m, bs[1..]);
      assert [bs[0]] + bs[1..] == bs;
    }
  }

  lemma FormatExamples()
    ensures Format(Hex, 0x0A) == [48, 97]            // "0a"
    ensures Format(Octal, 0x09) == [48, 49, 49]      // "011"
    ensures Format(Plaintext, 120) == [120]          // "x"
    ensures Format(Binary, 0x01) == [48, 48, 48, 48, 48, 48, 48, 49]
  {
  }

  // ----- the source's rendering -----

  /**
   What `sprintf("%02x", byte)` prints for a `char` argument on a platform where
   `char` is signed: a byte of 0x80 or more is sign-extended to the unsigned
   value 0xffffff00 + byte and printed with eight digits.
   */
  function SprintfHex(b: Byte): seq<Byte> {
    if b < 0x80 then Hex2(b) else [102, 102, 102, 102, 102, 102] + Hex2(b)
  }

  /**
   What `sprintf("%03o", byte)` prints for a signed `char`: 0xffffff00 + byte in
   octal is "37777777" followed by the three octal digits of 256 + byte.
   */
  function SprintfOct(b: Byte): seq<Byte> {
    if b < 0x80 then Oct3(b)
    else [51, 55, 55, 55, 55, 55, 55, 55] + Oct3(256 + b)
  }

  function Pad8(s: seq<Byte>): seq<Byte> {
    if |s| >= 8 then s[..8] else s + seq(8 - |s|, _ => 0 as Byte)
  }

  /**
   `cli_format` as written: `ret` is the 8-byte static buffer afterwards,
   `size` what it reports, `overflow` how many bytes `sprintf` (including its
   terminating NUL) wrote past the end of the buffer.
   */
  datatype Rendered = Rendered(ret: seq<Byte>, size: nat, overflow: nat)

  function FormatAsWritten(m: Mode, b: Byte): (r: Rendered)
    ensures |r.ret| == 8 && r.size == UnitSize(m) && r.size <= 8
  {
    match m
    case Plaintext => Rendered(Pad8([b]), 1, 0)
    case Octal =>
      var t := SprintfOct(b) + [0];
      Rendered(Pad8(t), 3, if |t| > 8 then |t| - 8 else 0)
    case Binary =>
      // each of the eight assignments stores into ret[0]; the last one wins
      Rendered(Pad8([Ascii0 + b % 2]), 8, 0)
    case _ =>
      var t := SprintfHex(b) + [0];
      Rendered(Pad8(t), 2, if |t| > 8 then |t| - 8 else 0)
  }

  /** The bytes a file-type interface actually receives: `ret[0..size)`. */
  function WrittenAsWritten(m: Mode, b: Byte): seq<Byte> {
    var r := FormatAsWritten(m, b);
    r.ret[..r.size]
  }

  /**
   Binary mode as written emits the lowest bit followed by seven NULs, so it
   cannot be read back: bytes 0x00 and 0x02 are written identically.
   */
  lemma BinaryAsWrittenLosesBits()
    ensures WrittenAsWritten(Binary, 0x01) == [49, 0, 0, 0, 0, 0, 0, 0]
    ensures WrittenAsWritten(Binary, 0x01) != Format(Binary, 0x01)
    ensures WrittenAsWritten(Binary, 0x00) == WrittenAsWritten(Binary, 0x02)
  {
    assert Format(Binary, 0x01)[0] == 48;
  }

  /**
   For every byte of 0x80 or more, hex and zlib modes overrun the 8-byte buffer
   by one byte and write "ff", and octal mode overruns it by four bytes and
   writes "377", whatever the byte was. Below 0x80 the source agrees with `Format`.
   */
  lemma SignedFormatOverflows(b: Byte)
    ensures b >= 0x80 ==> FormatAsWritten(Hex, b).overflow == 1
    ensures b >= 0x80 ==> WrittenAsWritten(Hex, b) == [102, 102]
    ensures b >= 0x80 ==> FormatAsWritten(Octal, b).overflow == 4
    ensures b >= 0x80 ==> WrittenAsWritten(Octal, b) == [51, 55, 55]
    ensures b < 0x80 ==> forall m :: m != Binary ==> WrittenAsWritten(m, b) == Format(m, b)
  {
    if b < 0x80 {
      forall m | m != Binary
        ensures WrittenAsWritten(m, b) == Format(m, b)
      {
        var r := FormatAsWritten(m, b);
        assert r.ret[..r.size] == Format(m, b);
      }
    }
  }

  /** What the loop over `cli_format` writes for a whole frame, byte by byte. */
  function EncodeAsWritten(m: Mode, bs: seq<Byte>): (r: seq<Byte>)
    ensures |r| == UnitSize(m) * |bs|
  {
    if |bs| == 0 then []
    else
      var u := UnitSize(m);
      assert |WrittenAsWritten(m, bs[0])| == u;
      assert u * |bs| == u * (|bs| - 1) + u;
      WrittenAsWritten(m, bs[0]) + EncodeAsWritten(m, bs[1..])
  }

  /**
   Outside binary mode, a frame of bytes below 0x80 is written exactly as the
   intended encoder renders it.
   */
  lemma {:induction false} EncodeAsWrittenAgrees(m: Mode, bs: seq<Byte>)
    requires m != Binary
    requires forall k :: 0 <= k < |bs| ==> bs[k] < 0x80
    ensures EncodeAsWritten(m, bs) == Encode(m, bs)
  {
    if |bs| > 0 {
      SignedFormatOverflows(bs[0]);
      EncodeAsWrittenAgrees(m, bs[1..]);
    }
  }
}

=== FILE: config.dfy ===
/**
 Interface configuration, `if set <var>=<value>` (`cli_cmd_if_set` and its
 setters): tokenising the command line, the type-gated dispatch on the
 variable name, and the setters for type, buffer size, device name, address,
 port and the two display modes.
 */
module Config {
  import opened Wrappers
  import opened Base
  import opened Text
  import opened Iface
  import opened Table

  // ----- tokenising -----

  /**
   The position of the first `t` of the command line (the one of "set"), or of
   its terminating NUL when there is none.
   */
  function FindT(buffer: seq<char>, pos: nat): (r: nat)
    ensures pos <= r && (At(buffer, r) == 't' || At(buffer, r) == Nul)
    ensures forall j :: pos <= j < r ==> At(buffer, j) != 't' && At(buffer, j) != Nul
    decreases |buffer| - pos
  {
    if pos >= |buffer| || buffer[pos] == 't' || buffer[pos] == Nul then pos
    else FindT(buffer, pos + 1)
  }

  /** The characters the scan visits from `pos`: up to a NUL or the end of the 16384-byte buffer. */
  function Region(buffer: seq<char>, pos: nat): (s: seq<char>)
    ensures forall j :: 0 <= j < |s| ==> s[j] != Nul
    decreases MaxBuffer - pos
  {
    if pos >= MaxBuffer || At(buffer, pos) == Nul then []
    else [At(buffer, pos)] + Region(buffer, pos + 1)
  }

  /**
   The scanning loop of `cli_cmd_if_set` over the visited characters: `=`
   switches from the variable to the value and is dropped, blanks are dropped,
   the variable keeps its first 256 characters, and the value stops growing
   once it holds `cap` characters.
   */
  function Scan(s: seq<char>, seenEq: bool, name: seq<char>, value: seq<char>, cap: nat)
    : (r: (seq<char>, seq<char>))
    decreases |s|
  {
    if |s| == 0 then (name, value)
    else if s[0] == '=' then Scan(s[1..], true, name, value, cap)
    else if s[0] == ' ' then Scan(s[1..], seenEq, name, value, cap)
    else if seenEq then
      if |value| >= cap then (name, value) else Scan(s[1..], true, name, value + [s[0]], cap)
    else Scan(s[1..], false, if |name| < DefaultBuffer then name + [s[0]] else name, value, cap)
  }

  /**
   The variable and value of an `if set` command line, with room for `cap`
   value characters. The source stops at 257 characters, one more than its
   256-byte value array holds (`TokeniseAsWritten`); the model uses 256.
   */
  function Tokenise(buffer: seq<char>, cap: nat): (r: (seq<char>, seq<char>)) {
    Scan(Region(buffer, FindT(buffer, 0) + 1), false, [], [], cap)
  }

  function TokeniseAsWritten(buffer: seq<char>): (r: (seq<char>, seq<char>)) {
    Tokenise(buffer, DefaultBuffer + 1)
  }

  // ----- the reference reading of the tokeniser -----

  /** The characters of `s` other than blanks and `=`, in order. */
  function Clean(s: seq<char>): (r: seq<char>)
    ensures |r| <= |s|
    ensures forall j :: 0 <= j < |r| ==> r[j] != ' ' && r[j] != '='
  {
    if |s| == 0 then [] else (if s[0] == ' ' || s[0] == '=' then [] else [s[0]]) + Clean(s[1..])
  }

  /** The index of the first `=` in `s`, or `|s|`. */
  function EqAt(s: seq<char>): (i: nat)
    ensures i <= |s| && (i < |s| ==> s[i] == '=')
    ensures forall j :: 0 <= j < i ==> s[j] != '='
  {
    if |s| == 0 || s[0] == '=' then 0 else 1 + EqAt(s[1..])
  }

  function Take(s: seq<char>, n: nat): (r: seq<char>)
    ensures |r| <= n && r <= s
    ensures |s| <= n ==> r == s
    ensures |s| >= n ==> |r| == n
  {
    if |s| <= n then s else s[..n]
  }

  /**
   What the tokeniser means: the variable is the non-blank characters before
   the first `=` (at most 256), the value the non-blank, non-`=` characters
   after it (at most `cap`).
   */
  function Tokens(s: seq<char>, cap: nat): (r: (seq<char>, seq<char>)) {
    (Take(Clean(s[..EqAt(s)]), DefaultBuffer), Take(Clean(s[EqAt(s)..]), cap))
  }

  lemma {:induction false} ScanValue(s: seq<char>, name: seq<char>, value: seq<char>, cap: nat)
    requires |value| <= cap
    ensures Scan(s, true, name, value, cap) == (name, Take(value + Clean(s), cap))
    decreases |s|
  {
    if |s| == 0 {
      assert value + Clean(s) == value;
    } else if s[0] == '=' || s[0] == ' ' {
      assert Scan(s, true, name, value, cap) == Scan(s[1..], true, name, value, cap);
      ScanValue(s[1..], name, value, cap);
      assert Clean(s) == [] + Clean(s[1..]);
      assert value + Clean(s) == value + Clean(s[1..]);
    } else if |value| >= cap {
      assert (value + Clean(s))[..cap] == value;
    } else {
      ScanValue(s[1..], name, value + [s[0]], cap);
      assert value + Clean(s) == value + [s[0]] + Clean(s[1..]);
    }
  }

  /** Splitting off a first character other than `=` from `s`. */
  lemma EqStep(s: seq<char>)
    requires |s| > 0 && s[0] != '='
    ensures EqAt(s) == 1 + EqAt(s[1..])
    ensures s[EqAt(s)..] == s[1..][EqAt(s[1..])..]
    ensures Clean(s[..EqAt(s)]) == (if s[0] == ' ' then [] else [s[0]]) + Clean(s[1..][..EqAt(s[1..])])
  {
    var t := s[1..];
    assert s[..EqAt(s)] == [s[0]] + t[..EqAt(t)];
    assert ([s[0]] + t[..EqAt(t)])[1..] == t[..EqAt(t)];
  }

  /** Appending to a variable already at 256 characters changes nothing. */
  lemma TakeStep(name: seq<char>, c: char, rest: seq<char>)
    requires |name| <= DefaultBuffer
    ensures Take(name + ([c] + rest), DefaultBuffer)
         == Take((if |name| < DefaultBuffer then name + [c] else name) + rest, DefaultBuffer)
  {
    if |name| < DefaultBuffer {
      assert name + ([c] + rest) == name + [c] + rest;
    } else {
      assert (name + ([c] + rest))[..DefaultBuffer] == name;
      assert (name + rest)[..DefaultBuffer] == name;
    }
  }

  /** The reference reading of `s` when the variable read so far is `name`. */
  function NameRest(s: seq<char>, name: seq<char>, cap: nat): (seq<char>, seq<char>) {
    (Take(name + Clean(s[..EqAt(s)]), DefaultBuffer), Take(Clean(s[EqAt(s)..]), cap))
  }

  lemma {:induction false} ScanName(s: seq<char>, name: seq<char>, cap: nat)
    requires |name| <= DefaultBuffer
    ensures Scan(s, false, name, [], cap) == NameRest(s, name, cap)
    decreases |s|
  {
    if |s| == 0 {
      assert name + Clean(s[..0]) == name;
    } else if s[0] == '=' {
      ScanNameAtEq(s, name, cap);
    } else {
      var name' := if s[0] != ' ' && |name| < DefaultBuffer then name + [s[0]] else name;
      ScanName(s[1..], name', cap);
      ScanNameStep(s, name, cap);
    }
  }

  /** At the first `=` the rest of the line is read as the value. */
  lemma ScanNameAtEq(s: seq<char>, name: seq<char>, cap: nat)
    requires |s| > 0 && s[0] == '=' && |name| <= DefaultBuffer
    ensures Scan(s, false, name, [], cap) == NameRest(s, name, cap)
  {
    assert Scan(s, false, name, [], cap) == Scan(s[1..], true, name, [], cap);
    ScanValue(s[1..], name, [], cap);
    assert EqAt(s) == 0;
    assert name + Clean(s[..0]) == name;
    assert s[0..] == s;
    assert Clean(s) == Clean(s[1..]);
    assert [] + Clean(s[1..]) == Clean(s[1..]);
  }

  /** One character before the first `=` moves from the line into the variable. */
  lemma ScanNameStep(s: seq<char>, name: seq<char>, cap: nat)
    requires |s| > 0 && s[0] != '=' && |name| <= DefaultBuffer
    requires var name' := if s[0] != ' ' && |name| < DefaultBuffer then name + [s[0]] else name;
             Scan(s[1..], false, name', [], cap) == NameRest(s[1..], name', cap)
    ensures Scan(s, false, name, [], cap) == NameRest(s, name, cap)
  {
    var t := s[1..];
    EqStep(s);
    if s[0] == ' ' {
      assert name + Clean(s[..EqAt(s)]) == name + Clean(t[..EqAt(t)]);
    } else {
      TakeStep(name, s[0], Clean(t[..EqAt(t)]));
    }
  }

  /** The tokenising loop computes exactly the reference reading of the command line. */
  lemma TokeniseMatchesReference(buffer: seq<char>, cap: nat)
    ensures Tokenise(buffer, cap) == Tokens(Region(buffer, FindT(buffer, 0) + 1), cap)
  {
    var s := Region(buffer, FindT(buffer, 0) + 1);
    ScanName(s, [], cap);
    assert [] + Clean(s[..EqAt(s)]) == Clean(s[..EqAt(s)]);
  }

  /**
   The value can overflow by one: a value part with 257 or more non-blank
   characters yields 257 characters, one more than the 256-byte array the
   source stores them in. With the bound corrected the value never exceeds it.
   */
  lemma ValueOverflowsByOne(buffer: seq<char>)
    requires var s := Region(buffer, FindT(buffer, 0) + 1);
             |Clean(s[EqAt(s)..])| > DefaultBuffer
    ensures |TokeniseAsWritten(buffer).1| == DefaultBuffer + 1
    ensures |Tokenise(buffer, DefaultBuffer).1| == DefaultBuffer
  {
    var s := Region(buffer, FindT(buffer, 0) + 1);
    var v := Clean(s[EqAt(s)..]);
    TokeniseMatchesReference(buffer, DefaultBuffer + 1);
    assert TokeniseAsWritten(buffer).1 == Take(v, DefaultBuffer + 1);
    TokeniseMatchesReference(buffer, DefaultBuffer);
    assert Tokenise(buffer, DefaultBuffer).1 == Take(v, DefaultBuffer);
  }

  // ----- setters -----

  /**
   `cli_cmd_if_set_xmode`: the mode named by `value` by its prefix or first
   character; an unrecognised name leaves the mode as it was. No name selects
   octal.
   */
  function SetXmode(mode: Mode, value: seq<char>): (r: Mode)
    ensures StartsWith(value, "zlib") || At(value, 0) == 'z' ==> r == Z
    ensures At(value, 0) == 'a' || (At(value, 0) == 'p' && At(value, 1) == 't') ==> r == Plaintext
    ensures At(value, 0) in {'h', 'x'} ==> r == Hex
    ensures At(value, 0) == 'b' ==> r == Binary
    ensures StartsWith(value, "plaintext") ==> r == Plaintext
    ensures At(value, 0) == 'p' && At(value, 1) != 't' && !StartsWith(value, "plaintext") ==> r == mode
    ensures At(value, 0) !in {'z', 'a', 'p', 'h', 'x', 'b'} ==> r == mode
    ensures r == Octal ==> mode == Octal
  {
    if StartsWith(value, "zlib") || At(value, 0) == 'z' then Z
    else if StartsWith(value, "pt") || StartsWith(value, "plaintext") || StartsWith(value, "ascii")
         || At(value, 0) == 'a' then Plaintext
    else if StartsWith(value, "hex") || At(value, 0) == 'h' || At(value, 0) == 'x' then Hex
    else if StartsWith(value, "binary") || At(value, 0) == 'b' then Binary
    else mode
  }

  /** The name the interface listing prints for a mode (`cli_print_model`). */
  function ModeName(m: Mode): seq<char> {
    match m
    case Plaintext => "plaintext"
    case Hex => "hex"
    case Octal => "octal"
    case Binary => "binary"
    case Z => "zlib"
  }

  /**
   Every printed mode name except octal sets that mode again; "octal" is not
   recognised and leaves the mode unchanged.
   */
  lemma ModeNamesRoundTrip(prev: Mode, m: Mode)
    ensures m != Octal ==> SetXmode(prev, ModeName(m)) == m
    ensures m == Octal ==> SetXmode(prev, ModeName(m)) == prev
  {
    assert At(ModeName(m), 0) == ModeName(m)[0];
  }

  /** `cli_cmd_if_set_buffersize`: values below 8 give 256; there is no upper bound. */
  function SetBuffersize(value: seq<char>): (n: nat)
    ensures n >= MinBuffer
    ensures Atoi(value) >= MinBuffer ==> n == Atoi(value)
    ensures Atoi(value) < MinBuffer ==> n == DefaultBuffer
  {
    var i := Atoi(value);
    if i < MinBuffer then DefaultBuffer else i
  }

  const Localhost: Ipv4 := Ipv4(127, 0, 0, 1)

  /** The result of one setter: the record afterwards, an error, and whether a file handle was closed. */
  datatype SetError = NoVariable | NoValue | UnknownVariable | UnknownType | BadAddress | NotAnInterface
  datatype Applied = Applied(m: Meta, err: Option<SetError>, closed: bool)

  /**
   `cli_cmd_if_set_type`, keyed on the value's prefix. Sockets get 127.0.0.1
   port 80 and the new type even when `socket` fails (`socketOk` false), in
   which case the interface is made inactive; exec, serial and memory
   interfaces become inactive; a file interface writes to stdout again. An
   unknown value is an error and changes nothing.
   */
  function SetType(m: Meta, value: seq<char>, socketOk: bool): (r: Applied)
    ensures !r.closed
    ensures r.err.Some? <==> r.err == Some(UnknownType)
    ensures r.err.Some? ==> r.m == m
    ensures (StartsWith(value, "tcp") || StartsWith(value, "udp")) ==>
              && r.m.itype == (if StartsWith(value, "tcp") then Tcp else Udp)
              && r.m.addr == Localhost && r.m.port == 80
              && r.m.active == (m.active && socketOk)
              && (socketOk ==> r.m.handle == SocketFd) && (!socketOk ==> r.m.handle == m.handle)
    ensures r.err.None? && r.m.itype in {Exec, Serial, Memory} ==> !r.m.active
    ensures r.err.None? && r.m.itype == File ==> r.m.devname == "stdout" && r.m.handle == Stdout
    ensures r.err.None? ==> r.m == m.(itype := r.m.itype, addr := r.m.addr, port := r.m.port,
                                       active := r.m.active, handle := r.m.handle,
                                       devname := r.m.devname)
    ensures r.err.None? <==>
              exists p :: p in ["tcp", "udp", "mem", "fil", "bin", "exec", "serial"] && StartsWith(value, p)
    ensures (StartsWith(value, "tcp") || StartsWith(value, "udp")) ==> r.m.devname == m.devname
    ensures !StartsWith(value, "tcp") && !StartsWith(value, "udp") && StartsWith(value, "mem") ==>
              r == Applied(m.(itype := Memory, handle := NoHandle, active := false), None, false)
    ensures !StartsWith(value, "tcp") && !StartsWith(value, "udp") && !StartsWith(value, "mem")
            && StartsWith(value, "fil") ==>
              r == Applied(m.(itype := File, devname := "stdout", handle := Stdout), None, false)
    ensures !StartsWith(value, "tcp") && !StartsWith(value, "udp") && !StartsWith(value, "mem")
            && !StartsWith(value, "fil") && (StartsWith(value, "bin") || StartsWith(value, "exec")) ==>
              r == Applied(m.(itype := Exec, devname := "/usr/bin/cat", active := false), None, false)
    ensures !StartsWith(value, "tcp") && !StartsWith(value, "udp") && !StartsWith(value, "mem")
            && !StartsWith(value, "fil") && !StartsWith(value, "bin") && !StartsWith(value, "exec")
            && StartsWith(value, "serial") ==>
              r == Applied(m.(itype := Serial, devname := "/dev/ttyS0", active := false), None, false)
  {
    if StartsWith(value, "tcp") || StartsWith(value, "udp") then
      var t := if StartsWith(value, "tcp") then Tcp else Udp;
      var m1 := m.(addr := Localhost, port := 80, itype := t);
      Applied(if socketOk then m1.(handle := SocketFd) else m1.(active := false), None, false)
    else if StartsWith(value, "mem") then
      Applied(m.(itype := Memory, handle := NoHandle, active := false), None, false)
    else if StartsWith(value, "fil") then
      Applied(m.(itype := File, devname := "stdout", handle := Stdout), None, false)
    else if StartsWith(value, "bin") || StartsWith(value, "exec") then
      Applied(m.(itype := Exec, devname := "/usr/bin/cat", active := false), None, false)
    else if StartsWith(value, "serial") then
      Applied(m.(itype := Serial, devname := "/dev/ttyS0", active := false), None, false)
    else
      Applied(m, Some(UnknownType), false)
  }

  /**
   `cli_cmd_if_set_devname`: the name is stored; on a file interface the old
   output is closed unless its name starts with "stdout", and the new name
   selects stdout or a file opened under that name.
   */
  function SetDevname(m: Meta, value: seq<char>): (r: Applied)
    ensures r.err.None? && r.m.devname == value
    ensures r.closed <==> m.itype == File && !StartsWith(m.devname, "stdout")
    ensures m.itype == File ==> r.m.handle == (if StartsWith(value, "stdout") then Stdout else FileOut(value))
    ensures m.itype != File ==> r.m.handle == m.handle
    ensures r.m == m.(devname := value, handle := r.m.handle)
  {
    if m.itype == File then
      var h := if StartsWith(value, "stdout") then Stdout else FileOut(value);
      Applied(m.(devname := value, handle := h), None, !StartsWith(m.devname, "stdout"))
    else
      Applied(m.(devname := value), None, false)
  }

  /**
   The environment the setters consult: whether `socket` succeeds and what
   `inet_pton` makes of the value.
   */
  datatype Env = Env(socketOk: bool, pton: Option<Ipv4>)

  /** The setter a variable name selects. */
  datatype Setter = DevnameSet | IpaddrSet | IpportSet | AddrSet | TypeSet | BufferSet
                  | RxmodeSet | TxmodeSet | NoSetter

  /**
   The dispatch of `cli_cmd_if_set`: the variable is matched by prefix, in this
   order: devname (exec, file and serial interfaces only), ipaddr and ipport
   (tcp and udp only), addr (memory only), type, buffer, rxmode, txmode.
   */
  function Dispatch(name: seq<char>, t: IfType): (r: Setter)
    ensures r == DevnameSet <==> StartsWith(name, "devname") && IsDevnameType(t)
    ensures r in {IpaddrSet, IpportSet} ==> IsIpType(t)
    ensures r == AddrSet ==> t == Memory
    ensures r == NoSetter ==> !StartsWith(name, "type") && !StartsWith(name, "buffer")
  {
    if StartsWith(name, "devname") && IsDevnameType(t) then DevnameSet
    else if StartsWith(name, "ipaddr") && IsIpType(t) then IpaddrSet
    else if StartsWith(name, "ipport") && IsIpType(t) then IpportSet
    else if StartsWith(name, "addr") && t == Memory then AddrSet
    else if StartsWith(name, "type") then TypeSet
    else if StartsWith(name, "buffer") then BufferSet
    else if StartsWith(name, "rxmode") then RxmodeSet
    else if StartsWith(name, "txmode") then TxmodeSet
    else NoSetter
  }

  /** Two names that differ at position `k` cannot both prefix the same string. */
  lemma Clash(s: seq<char>, p: seq<char>, q: seq<char>, k: nat)
    requires StartsWith(s, p) && k < |p| && k < |q| && p[k] != q[k]
    ensures !StartsWith(s, q)
  {
    assert s[k] == s[..|p|][k];
    if |q| <= |s| {
      assert s[..|q|][k] == s[k];
    }
  }

  /**
   A device name is only accepted by exec, file and serial interfaces, an
   address or port only by tcp and udp interfaces; elsewhere these names are
   unknown variables.
   */
  lemma DispatchGated(t: IfType)
    ensures Dispatch("devname", t) == (if IsDevnameType(t) then DevnameSet else NoSetter)
    ensures Dispatch("ipaddr", t) == (if IsIpType(t) then IpaddrSet else NoSetter)
    ensures Dispatch("ipport", t) == (if IsIpType(t) then IpportSet else NoSetter)
    ensures Dispatch("addr", t) == (if t == Memory then AddrSet else NoSetter)
  {
    Ungated("devname");
    NotPrefix("devname", "ipaddr");
    NotPrefix("devname", "ipport");
    NotPrefix("devname", "addr");
    Ungated("ipaddr");
    NotPrefix("ipaddr", "devname");
    NotPrefix("ipaddr", "addr");
    Ungated("ipport");
    NotPrefix("ipport", "devname");
    NotPrefix("ipport", "addr");
    Clash("ipport", "ipport", "ipaddr", 2);
    Ungated("addr");
    NotPrefix("addr", "devname");
    NotPrefix("addr", "ipaddr");
    NotPrefix("addr", "ipport");
  }

  /** Names that start differently do not prefix one another. */
  lemma NotPrefix(s: seq<char>, q: seq<char>)
    requires |s| > 0 && |q| > 0 && s[0] != q[0]
    ensures !StartsWith(s, q)
  {
    if |q| <= |s| {
      assert s[..|q|][0] == s[0];
    }
  }

  /** A name that starts with neither 't', 'b' nor 'r' selects none of the ungated setters. */
  lemma Ungated(s: seq<char>)
    requires |s| > 0 && s[0] !in {'t', 'b', 'r'}
    ensures !StartsWith(s, "type") && !StartsWith(s, "buffer")
    ensures !StartsWith(s, "rxmode") && !StartsWith(s, "txmode")
  {
    NotPrefix(s, "type");
    NotPrefix(s, "buffer");
    NotPrefix(s, "rxmode");
    NotPrefix(s, "txmode");
  }

  /** The names every interface accepts select their setter whatever the interface type. */
  lemma DispatchByPrefix(name: seq<char>, t: IfType)
    ensures StartsWith(name, "type") ==> Dispatch(name, t) == TypeSet
    ensures StartsWith(name, "buffer") ==> Dispatch(name, t) == BufferSet
    ensures StartsWith(name, "rxmode") ==> Dispatch(name, t) == RxmodeSet
    ensures StartsWith(name, "txmode") ==> Dispatch(name, t) == TxmodeSet
  {
    if StartsWith(name, "type") {
      ClashGated(name, "type");
    }
    if StartsWith(name, "buffer") {
      ClashGated(name, "buffer");
      Clash(name, "buffer", "type", 0);
    }
    if StartsWith(name, "rxmode") {
      ClashGated(name, "rxmode");
      Clash(name, "rxmode", "type", 0);
      Clash(name, "rxmode", "buffer", 0);
    }
    if StartsWith(name, "txmode") {
      ClashGated(name, "txmode");
      Clash(name, "txmode", "type", 1);
      Clash(name, "txmode", "buffer", 0);
      Clash(name, "txmode", "rxmode", 0);
    }
  }

  /** A name starting with a letter other than 'd', 'i' and 'a' selects none of the gated setters. */
  lemma ClashGated(name: seq<char>, p: seq<char>)
    requires StartsWith(name, p) && |p| > 0 && p[0] !in {'d', 'i', 'a'}
    ensures !StartsWith(name, "devname") && !StartsWith(name, "ipaddr")
    ensures !StartsWith(name, "ipport") && !StartsWith(name, "addr")
  {
    Clash(name, p, "devname", 0);
    Clash(name, p, "ipaddr", 0);
    Clash(name, p, "ipport", 0);
    Clash(name, p, "addr", 0);
  }

  /**
   Printing a buffer size and setting it again keeps it: every size the setter
   stores is one it accepts unchanged.
   */
  lemma SetBuffersizeFixedPoint(value: seq<char>)
    ensures SetBuffersize(Show(SetBuffersize(value))) == SetBuffersize(value)
  {
    ScanShowRoundTrip(SetBuffersize(value));
  }

  /** The full type names select their types with the per-type defaults. */
  lemma SetTypeByName(m: Meta, socketOk: bool)
    ensures SetType(m, "memory", socketOk).m == m.(itype := Memory, handle := NoHandle, active := false)
    ensures SetType(m, "file", socketOk).m == m.(itype := File, devname := "stdout", handle := Stdout)
    ensures SetType(m, "exec", socketOk).m == m.(itype := Exec, devname := "/usr/bin/cat", active := false)
    ensures SetType(m, "serial", socketOk).m == m.(itype := Serial, devname := "/dev/ttyS0", active := false)
  {
    NotPrefix("memory", "tcp");
    NotPrefix("memory", "udp");
    NotPrefix("file", "tcp");
    NotPrefix("file", "udp");
    NotPrefix("file", "mem");
    NotPrefix("exec", "tcp");
    NotPrefix("exec", "udp");
    NotPrefix("exec", "mem");
    NotPrefix("exec", "fil");
    NotPrefix("exec", "bin");
    NotPrefix("serial", "tcp");
    NotPrefix("serial", "udp");
    NotPrefix("serial", "mem");
    NotPrefix("serial", "fil");
    NotPrefix("serial", "bin");
    NotPrefix("serial", "exec");
    assert "memory"[..3] == "mem" && "file"[..3] == "fil";
    assert "exec"[..4] == "exec" && "serial"[..6] == "serial";
  }

  /**
   Naming a file and then "stdout" on a file interface returns it to standard
   output; the second call closes the file exactly when the first name did not
   start with "stdout". Every other field is as it was.
   */
  lemma SetDevnameBackToStdout(m: Meta, name: seq<char>)
    requires m.itype == File
    ensures var b := SetDevname(SetDevname(m, name).m, "stdout");
            && b.m == m.(devname := "stdout", handle := Stdout)
            && (b.closed <==> !StartsWith(name, "stdout"))
  {
    assert StartsWith("stdout", "stdout");
  }

  /**
   The type a successful `type=` stores decides which gated names the next
   `if set` accepts: tcp and udp take ipaddr and ipport, memory takes addr,
   and file, exec and serial take devname.
   */
  lemma SetTypeGatesDispatch(m: Meta, value: seq<char>, socketOk: bool)
    ensures var r := SetType(m, value, socketOk);
            var ip := StartsWith(value, "tcp") || StartsWith(value, "udp");
            var mem := !ip && StartsWith(value, "mem");
            r.err.None? ==>
              && (Dispatch("ipaddr", r.m.itype) == IpaddrSet <==> ip)
              && (Dispatch("ipport", r.m.itype) == IpportSet <==> ip)
              && (Dispatch("addr", r.m.itype) == AddrSet <==> mem)
              && (Dispatch("devname", r.m.itype) == DevnameSet <==> !ip && !mem)
  {
    DispatchGated(SetType(m, value, socketOk).m.itype);
  }

  /**
   One setter applied to the record. The address setter takes what
   `inet_pton` makes of the value; the port is the value's `atoi` truncated to
   16 bits; the memory address setter is accepted and does nothing.
   */
  function Apply(m: Meta, name: seq<char>, value: seq<char>, env: Env): (r: Applied)
    ensures r.closed ==> Dispatch(name, m.itype) == DevnameSet
    ensures r.m.devname != m.devname ==> Dispatch(name, m.itype) in {DevnameSet, TypeSet}
    ensures r.m.addr != m.addr || r.m.port != m.port ==> Dispatch(name, m.itype) in {IpaddrSet, IpportSet, TypeSet}
    ensures r.m.bufferSize != m.bufferSize ==> Dispatch(name, m.itype) == BufferSet
    ensures r.m.rxmode != m.rxmode ==> Dispatch(name, m.itype) == RxmodeSet
    ensures r.m.txmode != m.txmode ==> Dispatch(name, m.itype) == TxmodeSet
    ensures Dispatch(name, m.itype) == NoSetter <==> r.err == Some(UnknownVariable)
    ensures r.err == Some(UnknownVariable) ==> r.m == m
    ensures r.m == m.(itype := r.m.itype, active := r.m.active, handle := r.m.handle,
                      devname := r.m.devname, addr := r.m.addr, port := r.m.port,
                      bufferSize := r.m.bufferSize, rxmode := r.m.rxmode, txmode := r.m.txmode)
    ensures Dispatch(name, m.itype) != TypeSet ==> r.m.itype == m.itype && r.m.active == m.active
    ensures r.m.handle != m.handle ==> Dispatch(name, m.itype) in {DevnameSet, TypeSet}
    ensures Dispatch(name, m.itype) == DevnameSet ==> r == SetDevname(m, value)
    ensures Dispatch(name, m.itype) == IpaddrSet ==>
              if env.pton.Some? then r == Applied(m.(addr := env.pton.value), None, false)
              else r == Applied(m, Some(BadAddress), false)
    ensures Dispatch(name, m.itype) == IpportSet ==>
              r == Applied(m.(port := Atoi(value) % 0x1_0000), None, false) && r.m.port < 0x1_0000
    ensures Dispatch(name, m.itype) == AddrSet ==> r == Applied(m, None, false)
    ensures Dispatch(name, m.itype) == TypeSet ==> r == SetType(m, value, env.socketOk)
    ensures Dispatch(name, m.itype) == BufferSet ==> r == Applied(m.(bufferSize := SetBuffersize(value)), None, false)
    ensures Dispatch(name, m.itype) == RxmodeSet ==> r == Applied(m.(rxmode := SetXmode(m.rxmode, value)), None, false)
    ensures Dispatch(name, m.itype) == TxmodeSet ==> r == Applied(m.(txmode := SetXmode(m.txmode, value)), None, false)
  {
    match Dispatch(name, m.itype)
    case DevnameSet => SetDevname(m, value)
    case IpaddrSet =>
      (match env.pton
       case Some(a) => Applied(m.(addr := a), None, false)
       case None => Applied(m, Some(BadAddress), false))
    case IpportSet => Applied(m.(port := Atoi(value) % 0x1_0000), None, false)
    case AddrSet => Applied(m, None, false)
    case TypeSet => SetType(m, value, env.socketOk)
    case BufferSet => Applied(m.(bufferSize := SetBuffersize(value)), None, false)
    case RxmodeSet => Applied(m.(rxmode := SetXmode(m.rxmode, value)), None, false)
    case TxmodeSet => Applied(m.(txmode := SetXmode(m.txmode, value)), None, false)
    case NoSetter => Applied(m, Some(UnknownVariable), false)
  }

  /** What `if set` reports: the context afterwards, an error, and whether a file was closed. */
  datatype SetReply = SetReply(c: Ctx, err: Option<SetError>, closed: bool)

  /**
   `cli_cmd_if_set` on the selected interface. An empty variable or value is an
   error that changes no field; whatever happened, the interface's header is
   rewritten with its current record. A selected link is not an interface.
   */
  function IfSet(c: Ctx, buffer: seq<char>, env: Env): (r: SetReply)
    requires Valid(c)
    ensures Valid(r.c) && r.c == c.(table := c.table[c.sel := r.c.table[c.sel]])
    ensures !IsIfaceAt(c, c.sel) <==> r == SetReply(c, Some(NotAnInterface), false)
    ensures IsIfaceAt(c, c.sel) ==>
              var (name, value) := Tokenise(buffer, DefaultBuffer);
              var i := IfaceAt(c, c.sel);
              && IsIfaceAt(r.c, c.sel)
              && IfaceAt(r.c, c.sel).saved == IfaceAt(r.c, c.sel).m
              && IfaceAt(r.c, c.sel).log == i.log
              && (name == [] ==> r.err == Some(NoVariable) && IfaceAt(r.c, c.sel).m == i.m)
              && (name != [] && value == [] ==> r.err == Some(NoValue) && IfaceAt(r.c, c.sel).m == i.m)
              && (name != [] && value != [] ==>
                    var a := Apply(i.m, name, value, env);
                    IfaceAt(r.c, c.sel).m == a.m && r.err == a.err && r.closed == a.closed)
  {
    if !IsIfaceAt(c, c.sel) then
      assert c.table[c.sel := c.table[c.sel]] == c.table;
      SetReply(c, Some(NotAnInterface), false)
    else
      var (name, value) := Tokenise(buffer, DefaultBuffer);
      var i := IfaceAt(c, c.sel);
      var a := if name == [] then Applied(i.m, Some(NoVariable), false)
               else if value == [] then Applied(i.m, Some(NoValue), false)
               else Apply(i.m, name, value, env);
      var c' := c.(table := c.table[c.sel := Some(IfaceSlot(Save(i.(m := a.m))))]);
      assert forall j :: 0 <= j < |c.table| ==> (c'.table[j].Some? <==> c.table[j].Some?);
      assert forall j :: 0 <= j < |c.table| && c.table[j].Some? ==> LinkOk(c.table, c.table[j].value);
      SetReply(c', a.err, a.closed)
  }
}

=== FILE: editor.dfy ===
/**
 The line editor (`cli_ui`): the input line is a doubly linked list of
 characters with a cursor node after which the next key is inserted. Here the
 list is a sequence and the cursor is the index of its node (or the start of
 the line when the cursor is null); the editor also keeps the screen column,
 the input length, the high-water mark, the submitted command and the
 history position.
 */
module Editor {
  import opened Wrappers
  import opened Base
  import opened Text

  /**
   The cursor node: none (insertion goes to the front), the node holding
   `text[k]`, or a node that has been freed.
   */
  datatype Cursor = AtStart | After(k: nat) | Dangling

  datatype Editor = Editor(
    text: seq<char>,
    cur: Cursor,
    cpos: int,
    inputLen: int,
    hwm: int,
    cmd: seq<char>,
    hoffset: nat,
    hsize: nat)

  /** The number of characters before the insertion point. */
  function Pos(c: Cursor): nat
    requires !c.Dangling?
  {
    if c.AtStart? then 0 else c.k + 1
  }

  /** The cursor with `p` characters before it. */
  function CursorAt(p: nat): (c: Cursor)
    ensures !c.Dangling? && Pos(c) == p
  {
    if p == 0 then AtStart else After(p - 1)
  }

  /**
   The bookkeeping agrees with the list: the cursor is a live node, the screen
   column is its position, the length is the list's, the high-water mark is at
   least the length, the history position is within the history, and the
   command buffer has its 256 characters.
   */
  predicate Valid(e: Editor) {
    && !e.cur.Dangling? && Pos(e.cur) <= |e.text|
    && e.cpos == Pos(e.cur) && e.inputLen == |e.text| && e.hwm >= e.inputLen
    && e.hoffset <= e.hsize && |e.cmd| == DefaultBuffer
  }

  /**
   The editor `cli_ui_init` starts with, over a history of `hsize` lines; the
   history position is then set past the newest line, as `cli_ctx_init` does.
   */
  function Init(hsize: nat): (e: Editor)
    ensures Valid(e) && e.text == [] && e.cur == AtStart && e.cpos == 0 && e.inputLen == 0
    ensures e.hsize == hsize && e.hoffset == e.hsize
  {
    Editor([], AtStart, 0, 0, 0, Zeros(DefaultBuffer), hsize, hsize)
  }

  /**
   The first up arrow after start-up steps to the newest history line and
   shows it; the down arrow at start-up does nothing.
   */
  lemma FirstUpRecallsNewest(hsize: nat, line: seq<char>)
    requires hsize > 0
    ensures HistoryPrev(Init(hsize), Some(line)).hoffset == hsize - 1
    ensures HistoryPrev(Init(hsize), Some(line)).text == Printable(line, DefaultBuffer)
    ensures HistoryNext(Init(hsize), Some(line)) == Init(hsize)
  {
  }

  // ----- keys -----

  /**
   A printable key goes right after the cursor node (at the front when the
   cursor is null) and becomes the cursor; length and column grow by one and
   the high-water mark follows the length.
   */
  function Insert(e: Editor, key: char): (r: Editor)
    requires Valid(e)
    ensures Valid(r)
    ensures r.text == e.text[..Pos(e.cur)] + [key] + e.text[Pos(e.cur)..]
    ensures Pos(r.cur) == Pos(e.cur) + 1 && r.inputLen == e.inputLen + 1 && r.cpos == e.cpos + 1
    ensures r.hwm == (if e.hwm >= r.inputLen then e.hwm else r.inputLen)
    ensures r.cmd == e.cmd && r.hoffset == e.hoffset && r.hsize == e.hsize
  {
    var p := Pos(e.cur);
    e.(text := e.text[..p] + [key] + e.text[p..], cur := After(p), cpos := e.cpos + 1,
       inputLen := e.inputLen + 1, hwm := if e.hwm >= e.inputLen + 1 then e.hwm else e.inputLen + 1)
  }

  /**
   Backspace removes the cursor node and moves the cursor to its predecessor;
   with the cursor at the start it does nothing.
   */
  function Backspace(e: Editor): (r: Editor)
    requires Valid(e)
    ensures Valid(r)
    ensures e.cur == AtStart ==> r == e
    ensures e.cur.After? ==>
              var p := Pos(e.cur);
              && r.text == e.text[..p - 1] + e.text[p..]
              && Pos(r.cur) == p - 1 && r.inputLen == e.inputLen - 1 && r.cpos == e.cpos - 1
              && r == e.(text := r.text, cur := r.cur, inputLen := r.inputLen, cpos := r.cpos)
  {
    match e.cur
    case After(k) =>
      e.(text := e.text[..k] + e.text[k + 1..], cur := CursorAt(k), inputLen := e.inputLen - 1,
         cpos := e.cpos - 1)
    case _ => e
  }

  /** `cli_ui_handle_keyleft`: one node back, or 0 and no change at the start. */
  function Left(e: Editor): (r: (Editor, int))
    requires Valid(e)
    ensures Valid(r.0) && r.0.text == e.text
    ensures r.1 == 0 <==> e.cur == AtStart
    ensures r.1 == 0 ==> r.0 == e
    ensures r.1 == 1 ==> Pos(r.0.cur) == Pos(e.cur) - 1 && r.0 == e.(cur := r.0.cur, cpos := e.cpos - 1)
    ensures r.1 in {0, 1}
  {
    match e.cur
    case After(k) => (e.(cur := CursorAt(k), cpos := e.cpos - 1), 1)
    case _ => (e, 0)
  }

  /** `cli_ui_handle_keyright`: one node forward, or 0 and no change at the end. */
  function Right(e: Editor): (r: (Editor, int))
    requires Valid(e)
    ensures Valid(r.0) && r.0.text == e.text
    ensures r.1 == 0 <==> Pos(e.cur) == |e.text|
    ensures r.1 == 0 ==> r.0 == e
    ensures r.1 == 1 ==> Pos(r.0.cur) == Pos(e.cur) + 1 && r.0 == e.(cur := r.0.cur, cpos := e.cpos + 1)
    ensures r.1 in {0, 1}
  {
    var p := Pos(e.cur);
    if p < |e.text| then (e.(cur := After(p), cpos := e.cpos + 1), 1) else (e, 0)
  }

  /** Home: `Left` until it reports 0. */
  function Home(e: Editor): (r: Editor)
    requires Valid(e)
    ensures Valid(r)
    decreases Pos(e.cur)
  {
    var (l, moved) := Left(e);
    if moved == 0 then e else Home(l)
  }

  /** End: `Right` until it reports 0. */
  function End(e: Editor): (r: Editor)
    requires Valid(e)
    ensures Valid(r)
    decreases |e.text| - Pos(e.cur)
  {
    var (l, moved) := Right(e);
    if moved == 0 then e else End(l)
  }

  /** Home reaches the start of the line and changes nothing but the cursor. */
  lemma {:induction false} HomeReachesStart(e: Editor)
    requires Valid(e)
    ensures Home(e) == e.(cur := AtStart, cpos := 0)
    decreases Pos(e.cur)
  {
    if e.cur.After? {
      HomeReachesStart(Left(e).0);
    }
  }

  /** End reaches the end of the line and changes nothing but the cursor. */
  lemma {:induction false} EndReachesEnd(e: Editor)
    requires Valid(e)
    ensures End(e) == e.(cur := CursorAt(|e.text|), cpos := |e.text|)
    decreases |e.text| - Pos(e.cur)
  {
    if Pos(e.cur) < |e.text| {
      EndReachesEnd(Right(e).0);
    }
  }

  // ----- replacing the line -----

  /** The printable characters among the first 256 of `src` (NUL past its end), in order. */
  function Printable(src: seq<char>, n: nat): (r: seq<char>)
    requires n <= DefaultBuffer
    ensures |r| <= n
    ensures forall j :: 0 <= j < |r| ==> IsPrint(r[j] as int)
  {
    if n == 0 then []
    else Printable(src, n - 1) + (if IsPrint(At(src, n - 1) as int) then [At(src, n - 1)] else [])
  }

  /**
   `cli_ui_replace`: the line becomes the printable characters of the first
   256 of `src`, the cursor its last character, the column its length; the
   command buffer is cleared and the high-water mark never decreases.
   */
  function Replace(e: Editor, src: seq<char>): (r: Editor)
    requires Valid(e)
    ensures Valid(r)
    ensures r.text == Printable(src, DefaultBuffer)
    ensures Pos(r.cur) == |r.text| && r.cpos == r.inputLen
    ensures r.hwm == (if e.hwm >= |r.text| then e.hwm else |r.text|)
    ensures r.cmd == Zeros(DefaultBuffer) && r.hoffset == e.hoffset && r.hsize == e.hsize
  {
    var t := Printable(src, DefaultBuffer);
    Editor(t, CursorAt(|t|), |t|, |t|, if e.hwm >= |t| then e.hwm else |t|, Zeros(DefaultBuffer),
           e.hoffset, e.hsize)
  }

  /** A line of printable characters followed by NULs is replaced as it is. */
  lemma {:induction false} PrintableKeepsLine(src: seq<char>, n: nat)
    requires n <= DefaultBuffer && n <= |src|
    requires forall j :: 0 <= j < n ==> IsPrint(src[j] as int)
    ensures Printable(src, n) == src[..n]
  {
    if n > 0 {
      PrintableKeepsLine(src, n - 1);
      assert src[..n] == src[..n - 1] + [src[n - 1]];
    }
  }

  /**
   `cli_ui_history_prev` / `_next`: step one line back or forward when that
   stays within [0, hsize]; the line read there (`fetched`, none when the read
   fails) replaces the input.
   */
  function HistoryPrev(e: Editor, fetched: Option<seq<char>>): (r: Editor)
    requires Valid(e)
    ensures Valid(r) && r.hsize == e.hsize
    ensures e.hoffset == 0 ==> r == e
    ensures e.hoffset > 0 ==> r.hoffset == e.hoffset - 1
  {
    if e.hoffset > 0 then
      var e1 := e.(hoffset := e.hoffset - 1);
      match fetched
      case Some(line) => Replace(e1, line)
      case None => e1
    else e
  }

  function HistoryNext(e: Editor, fetched: Option<seq<char>>): (r: Editor)
    requires Valid(e)
    ensures Valid(r) && r.hsize == e.hsize
    ensures e.hoffset == e.hsize ==> r == e
    ensures e.hoffset < e.hsize ==> r.hoffset == e.hoffset + 1
  {
    if e.hoffset < e.hsize then
      var e1 := e.(hoffset := e.hoffset + 1);
      match fetched
      case Some(line) => Replace(e1, line)
      case None => e1
    else e
  }

  // ----- submitting the line -----

  /**
   `cli_ui_transpose` with the cursor reset: the characters go, in order, into
   the NUL-padded command buffer, and the line, its length, the high-water
   mark and the column are cleared. The source keeps only 256 characters of
   room; the first 256 are kept here.
   */
  function Transpose(e: Editor): (r: Editor)
    requires Valid(e)
    ensures Valid(r) && r.text == [] && r.cur == AtStart && r.hwm == 0
    ensures |e.text| <= DefaultBuffer ==> r.cmd[..|e.text|] == e.text
    ensures forall j :: |e.text| <= j < DefaultBuffer ==> r.cmd[j] == Nul
    ensures r.hoffset == e.hoffset && r.hsize == e.hsize
  {
    var n := if |e.text| <= DefaultBuffer then |e.text| else DefaultBuffer;
    Editor([], AtStart, 0, 0, 0, e.text[..n] + Zeros(DefaultBuffer - n), e.hoffset, e.hsize)
  }

  /**
   The source's transpose frees every node but leaves the cursor pointing at
   the node it had: a cursor that was not null is left dangling.
   */
  function TransposeAsWritten(e: Editor): (r: Editor)
    requires Valid(e)
    ensures r.cur == (if e.cur.After? then Dangling else AtStart)
    ensures r.(cur := AtStart) == Transpose(e)
  {
    Transpose(e).(cur := if e.cur == AtStart then AtStart else Dangling)
  }

  /** The keys `cli_ui_handle_keypress` distinguishes; anything else is a character code. */
  datatype Key = BackspaceKey | LeftKey | RightKey | EndKey | HomeKey | UpKey | DownKey | Code(code: int)

  /**
   The key would follow the cursor node's links: backspace, the arrows, home
   and end, whenever the cursor is not null.
   */
  predicate Dereferences(e: Editor, key: Key) {
    e.cur != AtStart && key in {BackspaceKey, LeftKey, RightKey, EndKey, HomeKey}
  }

  /**
   After the source's transpose of a line whose cursor is not at the start,
   the next backspace or left arrow dereferences a freed node; with the cursor
   reset no key does.
   */
  lemma TransposeLeavesDanglingCursor(e: Editor)
    requires Valid(e) && e.cur.After?
    ensures TransposeAsWritten(e).cur == Dangling
    ensures Dereferences(TransposeAsWritten(e), BackspaceKey)
    ensures Dereferences(TransposeAsWritten(e), LeftKey)
    ensures forall key :: !Dereferences(Transpose(e), key)
  {
  }

  /**
   `cli_ui_handle_keypress`: the key's action; up and down read the history
   line `fetched`. A character code that is not printable changes nothing.
   */
  function HandleKey(e: Editor, key: Key, fetched: Option<seq<char>>): (r: Editor)
    requires Valid(e)
    ensures Valid(r)
    ensures key.Code? && !IsPrint(key.code) ==> r == e
    ensures key.Code? && IsPrint(key.code) ==> r == Insert(e, key.code as char)
  {
    match key
    case BackspaceKey => Backspace(e)
    case LeftKey => Left(e).0
    case RightKey => Right(e).0
    case EndKey => End(e)
    case HomeKey => Home(e)
    case UpKey => HistoryPrev(e, fetched)
    case DownKey => HistoryNext(e, fetched)
    case Code(k) => if IsPrint(k) then Insert(e, k as char) else e
  }

  /** Backspace undoes a printable key, except that the high-water mark stays raised. */
  lemma BackspaceUndoesInsert(e: Editor, key: char)
    requires Valid(e)
    ensures Backspace(Insert(e, key)) == e.(hwm := Insert(e, key).hwm)
  {
    var p := Pos(e.cur);
    var t := e.text[..p] + [key] + e.text[p..];
    assert t[..p] + t[p + 1..] == e.text;
  }

  /** A successful left arrow is undone by a right arrow, and the other way round. */
  lemma LeftRightInverse(e: Editor)
    requires Valid(e)
    ensures Left(e).1 == 1 ==> Right(Left(e).0).0 == e
    ensures Right(e).1 == 1 ==> Left(Right(e).0).0 == e
  {
  }
}

=== FILE: forward.dfy ===
/**
 Frame handling and transmission: `cli_handle_rx` (record a received frame and
 forward it through the selected exchange link), `cli_if_tx` (frame a buffer
 for one interface and write it, recording a loopback frame on file-type
 interfaces), `cli_strlen`, the per-frame step of the capture loop and
 `cli_cmd_tx`. Device writes are returned as a list of outputs.
 */
module Forward {
  import opened Base
  import opened Iface
  import opened Table
  import opened Wrappers
  import Codec

  const CR: Byte := 13
  const LF: Byte := 10
  /** Largest frame body before the optional CR and LF. */
  const Cap: nat := MaxBuffer - 2

  /** One device write: raw bytes to a socket or serial line, or encoded text to a file. */
  datatype Output = Sent(slot: nat, bytes: seq<Byte>) | Printed(slot: nat, text: seq<Byte>)

  /** A new context, the device writes performed, and the frame buffer afterwards. */
  datatype Effect = Effect(c: Ctx, out: seq<Output>, buf: seq<Byte>)

  /**
   The two contexts have the same occupied slots, the same links, the same
   selection and console state; only interface contents may differ.
   */
  predicate SameShape(c: Ctx, d: Ctx) {
    && |c.table| == |d.table| && c.sel == d.sel
    && c.flags == d.flags && c.exiting == d.exiting && c.irq == d.irq
    && forall j :: 0 <= j < |c.table| ==>
         && (c.table[j].Some? <==> d.table[j].Some?)
         && (IsIfaceAt(c, j) <==> IsIfaceAt(d, j))
         && (c.table[j].Some? && !c.table[j].value.IfaceSlot? ==> d.table[j] == c.table[j])
  }

  lemma SameShapeKeepsValid(c: Ctx, d: Ctx)
    requires Valid(c) && SameShape(c, d)
    ensures Valid(d)
    ensures forall k :: Armed(c, k) <==> Armed(d, k)
  {
    forall j | 0 <= j < |d.table| && d.table[j].Some?
      ensures LinkOk(d.table, d.table[j].value)
    {
      assert LinkOk(c.table, c.table[j].value);
    }
  }

  /** Slot `k`'s interface after recording `frame`; every other slot is unchanged. */
  function RecordAt(c: Ctx, k: nat, frame: seq<Byte>): (r: Ctx)
    requires IsIfaceAt(c, k)
    ensures SameShape(c, r)
    ensures IfaceAt(r, k) == Record(IfaceAt(c, k), frame)
    ensures forall j :: 0 <= j < |c.table| && j != k ==> r.table[j] == c.table[j]
  {
    c.(table := c.table[k := Some(IfaceSlot(Record(IfaceAt(c, k), frame)))])
  }

  /**
   `cli_strlen`: the length of `buf[0..size)` without its trailing NUL bytes,
   that is the largest `i <= size` with `buf[i - 1] != 0` (or 0).
   */
  function Strlen(buf: seq<Byte>, size: nat): (r: nat)
    requires size <= |buf|
    ensures r <= size
    ensures r > 0 ==> buf[r - 1] != 0
    ensures forall j :: r <= j < size ==> buf[j] == 0
  {
    if size == 0 then 0 else if buf[size - 1] != 0 then size else Strlen(buf, size - 1)
  }

  function Min(a: nat, b: nat): nat {
    if a <= b then a else b
  }

  predicate AutoSizes(m: Meta) {
    m.flags & FlagAs != 0 && m.txmode == Plaintext
  }

  /**
   The frame body length `cli_if_tx` sends: the buffer size, or with auto-size
   on a plaintext interface the length without trailing NULs, capped at
   16382. The source starts the auto-size scan at the buffer size even when
   that exceeds the 16384-byte buffer; the scan starts at the buffer's end here.
   */
  function BodyLength(m: Meta, buf: seq<Byte>): (n: nat)
    ensures n <= Cap
    ensures AutoSizes(m) ==> n <= |buf|
    ensures !AutoSizes(m) ==> n == Min(m.bufferSize, Cap)
    ensures AutoSizes(m) && n < Cap ==>
              (n > 0 ==> buf[n - 1] != 0) &&
              forall j :: n <= j < Min(m.bufferSize, |buf|) ==> buf[j] == 0
    ensures AutoSizes(m) && n == Cap ==>
              exists j :: Cap - 1 <= j < Min(m.bufferSize, |buf|) && buf[j] != 0
    ensures AutoSizes(m) ==> n == Min(Strlen(buf, Min(m.bufferSize, |buf|)), Cap)
  {
    var size := Min(m.bufferSize, |buf|);
    var trunc := if AutoSizes(m) then Strlen(buf, size) else m.bufferSize;
    if AutoSizes(m) && trunc >= Cap then
      assert Cap - 1 <= trunc - 1 < size && buf[trunc - 1] != 0;
      Cap
    else
      Min(trunc, Cap)
  }

  /**
   The trailing-NUL length is determined by its defining property: any `r`
   whose last byte is non-zero and after which only NULs follow is `cli_strlen`.
   */
  lemma {:induction false} StrlenUnique(buf: seq<Byte>, size: nat, r: nat)
    requires size <= |buf| && r <= size
    requires r > 0 ==> buf[r - 1] != 0
    requires forall j :: r <= j < size ==> buf[j] == 0
    ensures Strlen(buf, size) == r
    decreases size
  {
    if size > r {
      assert buf[size - 1] == 0;
      StrlenUnique(buf, size - 1, r);
    }
  }

  /**
   Auto-sizing sends exactly the text without its trailing NULs, when that
   fits under the cap: "hello" followed by NULs sends five bytes.
   */
  lemma AutoSizeSendsText(m: Meta, buf: seq<Byte>, n: nat)
    requires AutoSizes(m) && n < Cap && n <= Min(m.bufferSize, |buf|)
    requires n > 0 ==> buf[n - 1] != 0
    requires forall j :: n <= j < Min(m.bufferSize, |buf|) ==> buf[j] == 0
    ensures BodyLength(m, buf) == n
  {
    StrlenUnique(buf, Min(m.bufferSize, |buf|), n);
  }

  /** What the auto line endings append after the body. */
  function Suffix(m: Meta): (s: seq<Byte>)
    ensures |s| <= 2
  {
    (if m.flags & FlagAcr != 0 then [CR] else []) + (if m.flags & FlagAlf != 0 then [LF] else [])
  }

  /**
   The framing of `cli_if_tx`: the body, then CR and LF according to the flags.
   The line endings are written into the caller's buffer right after the body,
   so the frame is a prefix of the buffer afterwards.
   */
  function Frame(m: Meta, buf: seq<Byte>): (r: (seq<Byte>, seq<Byte>))
    requires |buf| == MaxBuffer
    ensures var (bytes, after) := r;
            && bytes == buf[..BodyLength(m, buf)] + Suffix(m)
            && |after| == |buf| && |bytes| <= MaxBuffer
            && bytes == after[..|bytes|]
            && after[|bytes|..] == buf[|bytes|..]
  {
    var n := BodyLength(m, buf);
    var s := Suffix(m);
    var after := buf[..n] + s + buf[n + |s|..];
    (after[..n + |s|], after)
  }

  /**
   `cli_if_tx` for slot `t`. Only interfaces transmit. A file interface prints
   the frame encoded in its receive mode and records it as a loopback frame
   (which may in turn be forwarded); tcp, udp and serial interfaces send the
   raw frame; exec and memory interfaces send nothing.
   */
  function IfTx(c: Ctx, t: nat, buf: seq<Byte>): (r: Effect)
    requires Valid(c) && t < TableSize && |buf| == MaxBuffer
    ensures Valid(r.c) && SameShape(c, r.c) && |r.buf| == MaxBuffer
    ensures !IsIfaceAt(c, t) ==> r == Effect(c, [], buf)
    ensures IsIfaceAt(c, t) ==>
              var m := IfaceAt(c, t).m;
              var (bytes, after) := Frame(m, buf);
              match m.itype
              case File =>
                && |r.out| > 0 && r.out[0] == Printed(t, Codec.Encode(m.rxmode, bytes))
                && IfaceAt(r.c, t) == Record(IfaceAt(c, t), bytes)
                && (!Armed(c, t) ==>
                      r == Effect(RecordAt(c, t, bytes), [Printed(t, Codec.Encode(m.rxmode, bytes))], after))
              case Tcp => r == Effect(c, [Sent(t, bytes)], after)
              case Udp => r == Effect(c, [Sent(t, bytes)], after)
              case Serial => r == Effect(c, [Sent(t, bytes)], after)
              case _ => r == Effect(c, [], after)
    decreases if Armed(c, t) then 3 else 1
  {
    if !IsIfaceAt(c, t) then Effect(c, [], buf)
    else
      var m := IfaceAt(c, t).m;
      var (bytes, after) := Frame(m, buf);
      match m.itype
      case File =>
        var e := HandleRx(c, t, after, |bytes|);
        Effect(e.c, [Printed(t, Codec.Encode(m.rxmode, bytes))] + e.out, e.buf)
      case Tcp => Effect(c, [Sent(t, bytes)], after)
      case Udp => Effect(c, [Sent(t, bytes)], after)
      case Serial => Effect(c, [Sent(t, bytes)], after)
      case _ => Effect(c, [], after)
  }

  /**
   `cli_handle_rx`: the first `n` bytes of the buffer are recorded on slot `k`;
   then, if the selected slot is an exchange link whose receive endpoint is `k`,
   the buffer is transmitted through the link's other endpoint. A tie link
   never forwards. Because a link's endpoints differ, the loopback frame the
   transmit side records is not forwarded again, which is what makes this
   recursion terminate.
   */
  function HandleRx(c: Ctx, k: nat, buf: seq<Byte>, n: nat): (r: Effect)
    requires Valid(c) && IsIfaceAt(c, k) && |buf| == MaxBuffer && n <= |buf|
    ensures Valid(r.c) && SameShape(c, r.c) && |r.buf| == MaxBuffer
    ensures IfaceAt(r.c, k) == Record(IfaceAt(c, k), buf[..n])
    ensures !Armed(c, k) ==> r == Effect(RecordAt(c, k, buf[..n]), [], buf)
    decreases if Armed(c, k) then 2 else 0
  {
    var c1 := RecordAt(c, k, buf[..n]);
    SameShapeKeepsValid(c, c1);
    if Armed(c, k) then
      var tx := c.table[c.sel].value.txi;
      assert LinkOk(c.table, c.table[c.sel].value);
      assert !Armed(c1, tx);
      IfTx(c1, tx, buf)
    else
      Effect(c1, [], buf)
  }

  /** The exchange link the selection arms, if any: its transmit endpoint. */
  function ArmedTx(c: Ctx): nat
    requires c.sel < |c.table| && c.table[c.sel].Some? && !c.table[c.sel].value.IfaceSlot?
  {
    c.table[c.sel].value.txi
  }

  /**
   Forwarding through an armed exchange to a file interface: the frame is
   recorded on the receiving slot, printed on the transmit side, and recorded
   there once as a loopback frame; nothing is forwarded further and no other
   slot changes.
   */
  lemma ForwardToFile(c: Ctx, k: nat, buf: seq<Byte>, n: nat)
    requires Valid(c) && IsIfaceAt(c, k) && |buf| == MaxBuffer && n <= |buf|
    requires Armed(c, k)
    requires IsIfaceAt(c, ArmedTx(c)) && IfaceAt(c, ArmedTx(c)).m.itype == File
    ensures var tx := ArmedTx(c);
            var m := IfaceAt(c, tx).m;
            var bytes := Frame(m, buf).0;
            var r := HandleRx(c, k, buf, n);
            && r.c == RecordAt(RecordAt(c, k, buf[..n]), tx, bytes)
            && r.out == [Printed(tx, Codec.Encode(m.rxmode, bytes))]
  {
    var tx := ArmedTx(c);
    var c1 := RecordAt(c, k, buf[..n]);
    SameShapeKeepsValid(c, c1);
    assert LinkOk(c.table, c.table[c.sel].value);
    assert !Armed(c1, tx);
    assert IfaceAt(c1, tx) == IfaceAt(c, tx);
  }

  /**
   Forwarding through an armed exchange to a socket or serial interface: the
   frame is recorded on the receiving slot and the framed bytes are sent; the
   transmit side records nothing.
   */
  lemma ForwardToDevice(c: Ctx, k: nat, buf: seq<Byte>, n: nat)
    requires Valid(c) && IsIfaceAt(c, k) && |buf| == MaxBuffer && n <= |buf|
    requires Armed(c, k)
    requires IsIfaceAt(c, ArmedTx(c)) && IfaceAt(c, ArmedTx(c)).m.itype in {Tcp, Udp, Serial}
    ensures var tx := ArmedTx(c);
            var bytes := Frame(IfaceAt(c, tx).m, buf).0;
            var r := HandleRx(c, k, buf, n);
            && r.c == RecordAt(c, k, buf[..n])
            && r.out == [Sent(tx, bytes)]
  {
    var tx := ArmedTx(c);
    var c1 := RecordAt(c, k, buf[..n]);
    assert LinkOk(c.table, c.table[c.sel].value);
    assert IfaceAt(c1, tx) == IfaceAt(c, tx);
  }

  /** With a tie link selected, a received frame is only recorded: ties never forward. */
  lemma TieNeverForwards(c: Ctx, k: nat, buf: seq<Byte>, n: nat)
    requires Valid(c) && IsIfaceAt(c, k) && |buf| == MaxBuffer && n <= |buf|
    requires c.table[c.sel].value.Tie?
    ensures HandleRx(c, k, buf, n) == Effect(RecordAt(c, k, buf[..n]), [], buf)
  {
  }

  /**
   A file interface prints frames in its receive mode: two interfaces that
   differ only in their transmit mode (neither auto-sizing) print the same text.
   */
  lemma FileOutputUsesRxMode(c: Ctx, t: nat, buf: seq<Byte>, tm: Mode)
    requires Valid(c) && t < TableSize && |buf| == MaxBuffer
    requires IsIfaceAt(c, t) && IfaceAt(c, t).m.itype == File
    requires IfaceAt(c, t).m.flags & FlagAs == 0
    ensures var i := IfaceAt(c, t);
            var c2 := c.(table := c.table[t := Some(IfaceSlot(i.(m := i.m.(txmode := tm))))]);
            IfTx(c2, t, buf).out[0] == IfTx(c, t, buf).out[0]
  {
    var i := IfaceAt(c, t);
    var c2 := c.(table := c.table[t := Some(IfaceSlot(i.(m := i.m.(txmode := tm))))]);
    assert SameShape(c, c2);
    SameShapeKeepsValid(c, c2);
  }

  /**
   One successful read of the capture loop (`ret` bytes read into the buffer
   from slot `i`): the redraw counter grows when the interface displays
   asynchronously, and the frame is handled. A read of 0 or less changes nothing.
   */
  function CaptureFrame(c: Ctx, i: nat, buf: seq<Byte>, ret: int): (r: Effect)
    requires Valid(c) && IsIfaceAt(c, i) && |buf| == MaxBuffer && ret <= |buf|
    ensures Valid(r.c) && IsIfaceAt(r.c, i)
    ensures ret <= 0 ==> r == Effect(c, [], buf)
    ensures ret > 0 ==> IfaceAt(r.c, i) == Record(IfaceAt(c, i), buf[..ret])
    ensures ret > 0 ==> r.c.irq == c.irq + (if IfaceAt(c, i).m.flags & FlagAsync != 0 then 1 else 0)
  {
    if ret <= 0 then Effect(c, [], buf)
    else
      var c1 := c.(irq := if IfaceAt(c, i).m.flags & FlagAsync != 0 then c.irq + 1 else c.irq);
      assert IfaceAt(c1, i) == IfaceAt(c, i);
      HandleRx(c1, i, buf, ret)
  }

  /**
   `cli_cmd_tx`: the command buffer is transmitted through the selected
   interface, or through the transmit endpoint of a selected tie link. A
   selected exchange link is not an interface and transmits nothing.
   */
  function TxCommand(c: Ctx, cmd: seq<Byte>): (r: Effect)
    requires Valid(c) && |cmd| == MaxBuffer
    ensures Valid(r.c) && SameShape(c, r.c)
    ensures c.table[c.sel].value.IfaceSlot? ==> r == IfTx(c, c.sel, cmd)
    ensures c.table[c.sel].value.Tie? ==> r == IfTx(c, c.table[c.sel].value.txi, cmd)
    ensures c.table[c.sel].value.Exchange? ==> r == Effect(c, [], cmd)
  {
    match c.table[c.sel].value
    case IfaceSlot(_) => IfTx(c, c.sel, cmd)
    case Tie(tx, _) =>
      assert LinkOk(c.table, c.table[c.sel].value);
      IfTx(c, tx, cmd)
    case Exchange(_, _) => Effect(c, [], cmd)
  }
}

=== FILE: iface.dfy ===
/**
 One interface record (`cli_if`): its configuration, its replay cursor, its
 receive log and the copy of the record last written to the log's header.
 */
module Iface {
  import opened Base
  import opened RxLog
  import opened Wrappers

  /** The open transport handle (`rxdev`). */
  datatype Handle = NoHandle | Stdout | FileOut(path: seq<char>) | SocketFd

  datatype Ipv4 = Ipv4(a: Byte, b: Byte, c: Byte, d: Byte)

  /**
   The fields of the record that the header persists. `rx` is the replay
   position, `rxLast` the previously viewed one, `rxCount`/`rxSize` the number
   of frames and bytes received, `offsetPos` the running 32-bit log offset.
   The socket address and the device name share storage in the source; each is
   kept in its own field here.
   */
  datatype Meta = Meta(
    id: nat,
    itype: IfType,
    rxmode: Mode,
    txmode: Mode,
    bufferSize: nat,
    flags: bv32,
    active: bool,
    devname: seq<char>,
    addr: Ipv4,
    port: nat,
    handle: Handle,
    rx: nat,
    rxCount: nat,
    rxSize: nat,
    rxLast: nat,
    offsetPos: nat)

  /** A live interface: the record, its receive log, and the header on disk. */
  datatype Iface = Iface(m: Meta, log: Log, saved: Meta)

  /** The interface `add` creates in slot `id`: a file interface writing to stdout. */
  function Fresh(id: nat): (i: Iface)
    ensures i.m.itype == File && i.m.devname == "stdout" && i.m.handle == Stdout
    ensures i.m.active && i.m.bufferSize == DefaultBuffer && i.m.flags == 0 && i.m.id == id
    ensures i.m.rx == 0 && i.m.rxLast == 0 && i.m.rxCount == 0 && i.m.rxSize == 0
    ensures i.log == Initial && i.saved == i.m
  {
    var m := Meta(id, File, Plaintext, Plaintext, DefaultBuffer, 0, true, "stdout",
                  Ipv4(0, 0, 0, 0), 0, Stdout, 0, 0, 0, 0, 0);
    Iface(m, Initial, m)
  }

  /** The counters agree with the log: one index entry per frame plus the initial 0. */
  predicate Consistent(i: Iface) {
    && |i.log.offsets| == i.m.rxCount + 1
    && i.m.offsetPos == Last(i.log.offsets)
    && i.m.offsetPos < Word
    && i.m.rxSize == |i.log.payload| % Word
    && i.m.rx <= i.m.rxCount
    && i.m.rxLast <= i.m.rxCount
  }

  lemma FreshConsistent(id: nat)
    ensures Consistent(Fresh(id))
  {
  }

  /**
   The bookkeeping half of `cli_handle_rx`: the frame is appended to the log,
   the frame count grows by one and the byte count and the offset index by the
   frame length, both wrapping at 2^32 like the C `unsigned int` fields; the
   frame count is kept unbounded. The replay cursor and the configuration are
   untouched.
   */
  function Record(i: Iface, frame: seq<Byte>): (r: Iface)
    ensures r.m == i.m.(rxCount := i.m.rxCount + 1,
                        rxSize := (i.m.rxSize + |frame|) % Word,
                        offsetPos := (i.m.offsetPos + |frame|) % Word)
    ensures r.log == Append(i.log, i.m.offsetPos, frame) && r.saved == i.saved
    ensures i.m.rxSize + |frame| < Word ==> r.m.rxSize == i.m.rxSize + |frame|
    ensures Consistent(i) ==> Consistent(r)
  {
    var n := |frame|;
    var r := Iface(i.m.(rxCount := i.m.rxCount + 1,
                        rxSize := (i.m.rxSize + n) % Word,
                        offsetPos := (i.m.offsetPos + n) % Word),
                   Append(i.log, i.m.offsetPos, frame), i.saved);
    assert Consistent(i) ==> r.m.rxSize == |r.log.payload| % Word by {
      if Consistent(i) {
        ModAdd(|i.log.payload|, n);
      }
    }
    r
  }

  lemma ModAdd(a: nat, b: nat)
    ensures (a % Word + b) % Word == (a + b) % Word
  {
  }

  /**
   `cli_rx_modify`: the target is clamped into [0, rxCount], the old position
   becomes `rxLast`, and nothing else changes.
   */
  function RxModify(m: Meta, newrx: int): (r: Meta)
    ensures r == m.(rx := r.rx, rxLast := m.rx)
    ensures 0 <= newrx <= m.rxCount ==> r.rx == newrx
    ensures newrx < 0 ==> r.rx == 0
    ensures newrx > m.rxCount ==> r.rx == m.rxCount
  {
    var v := if newrx < 0 then 0 else if newrx > m.rxCount then m.rxCount else newrx;
    m.(rxLast := m.rx, rx := v)
  }

  /** Rewrites the log header with the current record. */
  function Save(i: Iface): (r: Iface)
    ensures r.saved == i.m && r.m == i.m && r.log == i.log
  {
    i.(saved := i.m)
  }

  /**
   The record `cli_ctx_reload_iface` rebuilds from an interface's files: the
   header as last saved, with the replay position reset to 0 and the interface
   inactive. The log is carried over unchanged: this function itself leaves the
   files alone, and the truncation of the offset file by the enclosing
   `cli_ctx_reload` is not modelled.
   */
  function Reloaded(disk: Iface): (r: Iface)
    ensures r.m == disk.saved.(rx := 0, active := false)
    ensures r.log == disk.log && r.saved == disk.saved
  {
    Iface(disk.saved.(rx := 0, active := false), disk.log, disk.saved)
  }

  /**
   Reload scenario: a fresh interface that records three frames and saves its
   header reloads with three frames, the cursor at 0 and inactive, and a log
   that still holds the three frames, as long as the offset file is not
   truncated by the enclosing reload.
   */
  lemma ReloadAfterThreeFrames(id: nat, f0: seq<Byte>, f1: seq<Byte>, f2: seq<Byte>)
    requires |f0| + |f1| + |f2| < Word
    ensures var r := Reloaded(Save(Record(Record(Record(Fresh(id), f0), f1), f2)));
            && r.m.rxCount == 3 && r.m.rx == 0 && !r.m.active
            && Read(r.log, 0) == Some(f0) && Read(r.log, 1) == Some(f1)
            && Read(r.log, 2) == Some(f2)
  {
    var fs := [f0, f1, f2];
    var i := Record(Record(Record(Fresh(id), f0), f1), f2);
    assert fs[..2][..1] == [f0] && fs[..2] == [f0, f1] && fs[..1] == [f0];
    assert [f0, f1][..1] == [f0] && [f0][..0] == [];
    assert fs[..2][..1] == [f0] && [f0][..0] == [];
    assert Sum([f0]) == |f0|;
    assert Sum([f0, f1]) == |f0| + |f1|;
    assert Sum(fs) == |f0| + |f1| + |f2|;
    assert Build([f0]) == Append(Initial, 0, f0);
    assert Build([f0, f1]) == Append(Build([f0]), |f0|, f1);
    assert Build(fs) == Append(Build([f0, f1]), |f0| + |f1|, f2);
    assert i.log == Build(fs);
    LogRoundTrip(fs);
  }
}

=== FILE: interpret.dfy ===
/**
 The command interpreter (`cli_interpret`, `cli_interpret_if`): a command line
 is matched against the built-in words in a fixed order and the matching
 command runs on the context; a line no command claims is offered to the
 selected interface as a flag toggle or a socket command.
 */
module Interpret {
  import opened Wrappers
  import opened Base
  import opened Text
  import opened Iface
  import opened Table
  import Forward
  import RxCmd
  import Config

  /** The option table of `cli_interpret`, in the order it is searched. */
  const Options: seq<seq<char>> :=
    ["ls", "cd", "if", "add", "save", "load", "cwd", "history", "tie", "ex", "sess", "rx", "flush", "clear"]

  /** A C `char` stored into a byte buffer. */
  function ToByte(ch: char): Byte {
    (ch as int) % 256
  }

  /**
   The transmit buffer built from the command line from position `pos` on:
   the rest of the 16384-byte line copied to the front, zeros after it.
   */
  function Payload(buffer: seq<char>, pos: nat): (r: seq<Byte>)
    ensures |r| == MaxBuffer
    ensures forall j :: 0 <= j < MaxBuffer && pos + j < MaxBuffer ==> r[j] == ToByte(At(buffer, pos + j))
    ensures forall j :: 0 <= j < MaxBuffer && pos + j >= MaxBuffer ==> r[j] == 0
  {
    seq(MaxBuffer, j => PayloadAt(buffer, pos, j))
  }

  function PayloadAt(buffer: seq<char>, pos: nat, j: int): Byte {
    if 0 <= j && pos + j < MaxBuffer then ToByte(At(buffer, pos + j)) else 0
  }

  /** The transmit buffer `flush` sends: CR, LF, then zeros. */
  function FlushPayload(): (r: seq<Byte>)
    ensures |r| == MaxBuffer && r[0] == Forward.CR && r[1] == Forward.LF
    ensures forall j :: 2 <= j < MaxBuffer ==> r[j] == 0
  {
    var r: seq<Byte> := seq(MaxBuffer, (j: int) => if j == 0 then Forward.CR else if j == 1 then Forward.LF else 0);
    r
  }

  /** What the surrounding system answers: the setters' environment and whether `connect` succeeds. */
  datatype IoEnv = IoEnv(setter: Config.Env, connectOk: bool)

  /** The context afterwards, the device writes, and `cli_interpret`'s return value. */
  datatype Outcome = Outcome(c: Ctx, out: seq<Forward.Output>, ret: int)

  /** `cd <n>`: selects slot n when it is occupied. */
  function Cd(c: Ctx, buffer: seq<char>): (r: Ctx)
    requires Valid(c)
    ensures Valid(r)
    ensures r != c ==> r == c.(sel := r.sel) && c.table[r.sel].Some?
    ensures match ScanInt(if |buffer| >= 2 then buffer[2..] else [])
            case Some(i) => r == (if 0 <= i < |c.table| && c.table[i].Some? then c.(sel := i) else c)
            case None => r == c
  {
    match ScanInt(if |buffer| >= 2 then buffer[2..] else [])
    case Some(i) =>
      if 0 <= i < |c.table| then
        match Select(c, i)
        case Success(d) => d
        case Failure(_) => c
      else c
    case None => c
  }

  /** `tie <tx> <rx>` and `ex <tx> <rx>`: the two numbers start after the command word. */
  function Link(c: Ctx, buffer: seq<char>, kind: LinkKind, from: nat): (r: Ctx)
    requires Valid(c)
    ensures Valid(r)
    ensures r.sel == c.sel
    ensures match ScanTwo(if from <= |buffer| then buffer[from..] else [])
            case Some((tx, rx)) =>
              r == (if 0 <= tx < TableSize && 0 <= rx < TableSize then AddLine(c, kind, tx, rx).c else c)
            case None => r == c
  {
    match ScanTwo(if from <= |buffer| then buffer[from..] else [])
    case Some((tx, rx)) =>
      if 0 <= tx < TableSize && 0 <= rx < TableSize then AddLine(c, kind, tx, rx).c else c
    case None => c
  }

  /** `save`: rewrites the selected interface's header. */
  function SaveSelected(c: Ctx): (r: Ctx)
    requires Valid(c)
    ensures Valid(r)
    ensures IsIfaceAt(c, c.sel) ==> IsIfaceAt(r, c.sel) && IfaceAt(r, c.sel) == Save(IfaceAt(c, c.sel))
    ensures !IsIfaceAt(c, c.sel) ==> r == c
  {
    if IsIfaceAt(c, c.sel) then
      var r := c.(table := c.table[c.sel := Some(IfaceSlot(Save(IfaceAt(c, c.sel))))]);
      assert forall j :: 0 <= j < |c.table| ==> (r.table[j].Some? <==> c.table[j].Some?);
      assert forall j :: 0 <= j < |c.table| && c.table[j].Some? ==> LinkOk(c.table, c.table[j].value);
      r
    else c
  }

  /** The command in row `k` of the option table. */
  function RunOption(c: Ctx, k: nat, buffer: seq<char>, env: IoEnv): (r: Outcome)
    requires Valid(c) && k < |Options|
    ensures Valid(r.c) && r.ret == 0
    ensures Options[k] in {"ls", "load", "cwd", "history", "sess", "clear"} ==> r == Outcome(c, [], 0)
    ensures Options[k] in {"tie", "ex", "cd"} ==> r.c.table[r.c.sel].Some? && r.out == []
    ensures Options[k] in {"tie", "ex"} ==> r.c.sel == c.sel
    ensures r.out != [] ==> Options[k] == "flush"
    ensures Options[k] == "cd" ==> r.c == Cd(c, buffer)
    ensures Options[k] == "if" ==>
              r.c == (if StartsWith(NameWord(if |buffer| >= 2 then buffer[2..] else []), "set")
                      then Config.IfSet(c, buffer, env.setter).c else c)
    ensures Options[k] == "add" ==> r.c == Add(c)
    ensures Options[k] == "save" ==> r.c == SaveSelected(c)
    ensures Options[k] == "tie" ==> r.c == Link(c, buffer, TieLink, 3)
    ensures Options[k] == "ex" ==> r.c == Link(c, buffer, ExchangeLink, 2)
    ensures Options[k] == "rx" ==>
              var reply := RxCmd.Rx(c, buffer);
              r.out == [] && r.c == (if reply.Success? && reply.value.Moved? then reply.value.c else c)
    ensures Options[k] == "flush" ==>
              var e := Forward.TxCommand(c, FlushPayload());
              r.c == e.c && r.out == e.out
  {
    var name := Options[k];
    if name == "cd" then Outcome(Cd(c, buffer), [], 0)
    else if name == "if" then
      if StartsWith(NameWord(if |buffer| >= 2 then buffer[2..] else []), "set")
      then Outcome(Config.IfSet(c, buffer, env.setter).c, [], 0)
      else Outcome(c, [], 0)
    else if name == "add" then Outcome(Add(c), [], 0)
    else if name == "save" then Outcome(SaveSelected(c), [], 0)
    else if name == "tie" then Outcome(Link(c, buffer, TieLink, 3), [], 0)
    else if name == "ex" then Outcome(Link(c, buffer, ExchangeLink, 2), [], 0)
    else if name == "rx" then
      var reply := RxCmd.Rx(c, buffer);
      if reply.Success? && reply.value.Moved? then Outcome(reply.value.c, [], 0) else Outcome(c, [], 0)
    else if name == "flush" then
      var e := Forward.TxCommand(c, FlushPayload());
      Outcome(e.c, e.out, 0)
    else Outcome(c, [], 0)
  }

  /** The branches of `cli_interpret`. */
  datatype Command = Quit | Echo | TxRaw | TxFile | TxTrimmed | Blank | Option(k: nat) | Unclaimed

  /** `exit`, `quit` or any line starting with `q`. */
  predicate QuitLine(buffer: seq<char>) {
    StartsWith(buffer, "exit") || StartsWith(buffer, "quit") || At(buffer, 0) == 'q'
  }

  /** The line passes every test before the option table is searched. */
  predicate Searched(buffer: seq<char>) {
    && !QuitLine(buffer) && !StartsWith(buffer, "echo")
    && !StartsWith(buffer, "tx:") && !StartsWith(buffer, "tx<") && !StartsWith(buffer, "tx")
    && At(buffer, 0) != Nul
  }

  /**
   How `cli_interpret` classifies a line, first test first: exit/quit (or any
   line starting with `q`), `echo`, `tx:`, `tx<`, `tx`, the empty line, then
   the first option whose name prefixes the line.
   */
  function Classify(buffer: seq<char>): (r: Command)
    ensures r == Quit <==> QuitLine(buffer)
    ensures r == Echo <==> !QuitLine(buffer) && StartsWith(buffer, "echo")
    ensures r == TxRaw <==> !QuitLine(buffer) && !StartsWith(buffer, "echo") && StartsWith(buffer, "tx:")
    ensures r == TxFile <==>
              && !QuitLine(buffer) && !StartsWith(buffer, "echo") && !StartsWith(buffer, "tx:")
              && StartsWith(buffer, "tx<")
    ensures r == TxTrimmed <==>
              && !QuitLine(buffer) && !StartsWith(buffer, "echo") && !StartsWith(buffer, "tx:")
              && !StartsWith(buffer, "tx<") && StartsWith(buffer, "tx")
    ensures r == Blank <==>
              && !QuitLine(buffer) && !StartsWith(buffer, "echo") && !StartsWith(buffer, "tx:")
              && !StartsWith(buffer, "tx<") && !StartsWith(buffer, "tx") && At(buffer, 0) == Nul
    ensures r.Option? <==> Searched(buffer) && FirstMatch(buffer, Options).Some?
    ensures r.Option? ==> FirstMatch(buffer, Options) == Some(r.k)
    ensures r == Unclaimed <==> Searched(buffer) && FirstMatch(buffer, Options).None?
  {
    if QuitLine(buffer) then Quit
    else if StartsWith(buffer, "echo") then Echo
    else if StartsWith(buffer, "tx:") then TxRaw
    else if StartsWith(buffer, "tx<") then TxFile
    else if StartsWith(buffer, "tx") then TxTrimmed
    else if At(buffer, 0) == Nul then Blank
    else
      match FirstMatch(buffer, Options)
      case Some(k) => Option(k)
      case None => Unclaimed
  }

  /**
   `cli_interpret`: runs the command the line is classified as. `echo`
   toggles the echo flag unless followed by `?`; `tx:` transmits the rest of
   the line as it is, `tx<` does nothing, `tx` transmits the rest after its
   blanks. The result is 1 exactly when nothing claimed the line, and then
   nothing has changed.
   */
  function Interpret(c: Ctx, buffer: seq<char>, env: IoEnv): (r: Outcome)
    requires Valid(c)
    ensures Valid(r.c)
    ensures Classify(buffer) == Quit ==> r == Outcome(c.(exiting := true), [], 0)
    ensures Classify(buffer) == Echo ==>
              r == Outcome(c.(flags := if At(buffer, 4) == '?' then c.flags else c.flags ^ FlagEcho), [], 0)
    ensures Classify(buffer) == TxRaw ==>
              var e := Forward.TxCommand(c, Payload(buffer, 3));
              r == Outcome(e.c, e.out, 0)
    ensures Classify(buffer) == TxTrimmed ==>
              var e := Forward.TxCommand(c, Payload(buffer, RxCmd.SkipBlanks(buffer, 2)));
              r == Outcome(e.c, e.out, 0)
    ensures Classify(buffer) in {TxFile, Blank} ==> r == Outcome(c, [], 0)
    ensures Classify(buffer).Option? ==> r == RunOption(c, Classify(buffer).k, buffer, env)
    ensures r.ret == 1 <==> Classify(buffer) == Unclaimed
    ensures r.ret == 1 ==> r == Outcome(c, [], 1)
    ensures r.ret != 1 ==> r.ret == 0
  {
    match Classify(buffer)
    case Quit => Outcome(c.(exiting := true), [], 0)
    case Echo => Outcome(c.(flags := if At(buffer, 4) == '?' then c.flags else c.flags ^ FlagEcho), [], 0)
    case TxRaw =>
      var e := Forward.TxCommand(c, Payload(buffer, 3));
      Outcome(e.c, e.out, 0)
    case TxFile => Outcome(c, [], 0)
    case TxTrimmed =>
      var e := Forward.TxCommand(c, Payload(buffer, RxCmd.SkipBlanks(buffer, 2)));
      Outcome(e.c, e.out, 0)
    case Blank => Outcome(c, [], 0)
    case Option(k) => RunOption(c, k, buffer, env)
    case Unclaimed => Outcome(c, [], 1)
  }

  /** The flag a toggle word names, tried in this order ("async" before its prefix "as"). */
  function ToggleOf(buffer: seq<char>): (r: Option<(bv32, nat)>)
    ensures r.Some? ==> r.value.0 in {FlagAsync, FlagAs, FlagAlf, FlagAcr}
  {
    if StartsWith(buffer, "async") then Some((FlagAsync, 5))
    else if StartsWith(buffer, "as") then Some((FlagAs, 2))
    else if StartsWith(buffer, "alf") then Some((FlagAlf, 3))
    else if StartsWith(buffer, "acr") then Some((FlagAcr, 3))
    else None
  }

  /**
   `cli_interpret_if` on the selected interface: a toggle word flips its flag
   unless the character after the word is `?`; on tcp and udp interfaces
   `connect` makes the interface active when the connection succeeds and
   `close` makes it inactive. Only the selected interface's flags and
   activity can change.
   */
  function InterpretIf(c: Ctx, buffer: seq<char>, connectOk: bool): (r: Ctx)
    requires Valid(c)
    ensures Valid(r)
    ensures !IsIfaceAt(c, c.sel) ==> r == c
    ensures IsIfaceAt(c, c.sel) ==>
              var i := IfaceAt(c, c.sel);
              && IsIfaceAt(r, c.sel)
              && r == c.(table := c.table[c.sel := r.table[c.sel]])
              && IfaceAt(r, c.sel) == i.(m := i.m.(flags := IfaceAt(r, c.sel).m.flags,
                                                   active := IfaceAt(r, c.sel).m.active))
              && (ToggleOf(buffer).Some? ==>
                    var (f, at) := ToggleOf(buffer).value;
                    && IfaceAt(r, c.sel).m.active == i.m.active
                    && IfaceAt(r, c.sel).m.flags == (if At(buffer, at) == '?' then i.m.flags else i.m.flags ^ f))
              && (ToggleOf(buffer).None? ==> IfaceAt(r, c.sel).m.flags == i.m.flags)
              && (IfaceAt(r, c.sel).m.active != i.m.active ==> IsIpType(i.m.itype))
              && (ToggleOf(buffer).None? && IsIpType(i.m.itype) ==>
                    IfaceAt(r, c.sel).m.active == (if StartsWith(buffer, "connect") then i.m.active || connectOk
                                                   else if StartsWith(buffer, "close") then false
                                                   else i.m.active))
              && (ToggleOf(buffer).None? && !IsIpType(i.m.itype) ==> r == c)
  {
    if !IsIfaceAt(c, c.sel) then c
    else RxCmd.PutMeta(c, c.sel, IfMeta(IfaceAt(c, c.sel).m, buffer, connectOk))
  }

  /** The record `cli_interpret_if` leaves on one interface: only flags and activity change. */
  function IfMeta(m: Meta, buffer: seq<char>, connectOk: bool): (r: Meta)
    ensures r == m.(flags := r.flags, active := r.active)
    ensures ToggleOf(buffer).Some? ==>
              var (f, at) := ToggleOf(buffer).value;
              r == (if At(buffer, at) == '?' then m else m.(flags := m.flags ^ f))
    ensures ToggleOf(buffer).None? ==> r.flags == m.flags
    ensures r.active != m.active ==> IsIpType(m.itype)
    ensures ToggleOf(buffer).None? && IsIpType(m.itype) ==>
              r.active == (if StartsWith(buffer, "connect") then m.active || connectOk
                           else if StartsWith(buffer, "close") then false
                           else m.active)
    ensures ToggleOf(buffer).None? && !IsIpType(m.itype) ==> r == m
  {
    match ToggleOf(buffer)
    case Some((f, at)) => if At(buffer, at) == '?' then m else m.(flags := m.flags ^ f)
    case None =>
      if IsIpType(m.itype) then
        if StartsWith(buffer, "connect") then (if connectOk then m.(active := true) else m)
        else if StartsWith(buffer, "close") then m.(active := false)
        else m
      else m
  }

  /** Toggling is an involution: the same toggle word twice restores the interface. */
  lemma ToggleTwiceRestores(c: Ctx, buffer: seq<char>, connectOk: bool)
    requires Valid(c) && ToggleOf(buffer).Some?
    ensures InterpretIf(InterpretIf(c, buffer, connectOk), buffer, connectOk) == c
  {
    if IsIfaceAt(c, c.sel) {
      var m := IfaceAt(c, c.sel).m;
      var r1 := InterpretIf(c, buffer, connectOk);
      IfMetaTwice(m, buffer, connectOk);
      var r2 := RxCmd.PutMeta(r1, c.sel, m);
      assert r2.table == c.table;
    }
  }

  lemma IfMetaTwice(m: Meta, buffer: seq<char>, connectOk: bool)
    requires ToggleOf(buffer).Some?
    ensures IfMeta(IfMeta(m, buffer, connectOk), buffer, connectOk) == m
  {
    var f := ToggleOf(buffer).value.0;
    assert m.flags ^ f ^ f == m.flags;
  }

  /** "async" toggles the asynchronous flag, not the auto-size flag its prefix "as" names. */
  lemma AsyncIsNotAs()
    ensures ToggleOf("async") == Some((FlagAsync, 5))
    ensures ToggleOf("as") == Some((FlagAs, 2))
    ensures ToggleOf("as?") == Some((FlagAs, 2))
  {
  }

  /**
   One command line as `cli_readcmd` handles it after stripping: the
   interpreter runs, and a line it does not claim goes to the interface.
   */
  function Execute(c: Ctx, buffer: seq<char>, env: IoEnv): (r: Outcome)
    requires Valid(c)
    ensures Valid(r.c)
    ensures Interpret(c, buffer, env).ret == 1 ==> r == Outcome(InterpretIf(c, buffer, env.connectOk), [], 1)
    ensures Interpret(c, buffer, env).ret != 1 ==> r == Interpret(c, buffer, env)
  {
    var o := Interpret(c, buffer, env);
    if o.ret == 1 then Outcome(InterpretIf(o.c, buffer, env.connectOk), [], 1) else o
  }

  /** Every line whose first character is `q` ends the session, whatever follows. */
  lemma QuitClaimsEveryQLine(c: Ctx, buffer: seq<char>, env: IoEnv)
    requires Valid(c) && At(buffer, 0) == 'q'
    ensures Interpret(c, buffer, env).c.exiting && Interpret(c, buffer, env).ret == 0
  {
    assert Classify(buffer) == Quit;
  }

  /** `add` runs the add command and nothing else. */
  lemma InterpretRunsAdd(c: Ctx, env: IoEnv)
    requires Valid(c)
    ensures Interpret(c, "add", env) == Outcome(Add(c), [], 0)
  {
    var line := "add";
    forall j | 0 <= j < 3
      ensures !StartsWith(line, Options[j])
    {
      Config.NotPrefix(line, Options[j]);
    }
    assert line[..3] == Options[3];
    FirstMatchAt(line, 3);
    SearchedByFirst(line);
    assert Classify(line) == Option(3);
  }

  /** `cd` followed by the number of an occupied slot selects that slot and changes nothing else. */
  lemma InterpretCdSelects(c: Ctx, i: nat, env: IoEnv)
    requires Valid(c) && i < |c.table| && c.table[i].Some?
    ensures Interpret(c, "cd" + Show(i), env) == Outcome(c.(sel := i), [], 0)
  {
    var line := "cd" + Show(i);
    assert line[..2] == "cd" && line[2..] == Show(i);
    Config.NotPrefix(line, Options[0]);
    FirstMatchAt(line, 1);
    SearchedByFirst(line);
    assert Classify(line) == Option(1);
    ScanShowRoundTrip(i);
  }

  /** `flush` transmits CR, LF and zeros through the selection, as `tx` would. */
  lemma InterpretFlushTransmits(c: Ctx, env: IoEnv)
    requires Valid(c)
    ensures var e := Forward.TxCommand(c, FlushPayload());
            Interpret(c, "flush", env) == Outcome(e.c, e.out, 0)
  {
    FlushIsOption();
    var r := Interpret(c, "flush", env);
    assert r == RunOption(c, 12, "flush", env);
    assert Options[12] == "flush";
  }

  /** "flush" passes every earlier test and is the thirteenth option. */
  lemma FlushIsOption()
    ensures Classify("flush") == Option(12)
  {
    var line := "flush";
    forall j | 0 <= j < 12
      ensures !StartsWith(line, Options[j])
    {
      Config.NotPrefix(line, Options[j]);
    }
    assert line[..5] == Options[12];
    FirstMatchAt(line, 12);
    SearchedByFirst(line);
  }

  /** A line starting with a letter other than e, q and t reaches the option table. */
  lemma SearchedByFirst(line: seq<char>)
    requires |line| > 0 && line[0] !in {'e', 'q', 't', Nul}
    ensures Searched(line)
  {
    Config.NotPrefix(line, "exit");
    Config.NotPrefix(line, "quit");
    Config.NotPrefix(line, "echo");
    Config.NotPrefix(line, "tx:");
    Config.NotPrefix(line, "tx<");
    Config.NotPrefix(line, "tx");
  }

  /** The option at `k` is the one found when it is the first whose name prefixes the line. */
  lemma FirstMatchAt(buffer: seq<char>, k: nat)
    requires k < |Options| && StartsWith(buffer, Options[k])
    requires forall j :: 0 <= j < k ==> !StartsWith(buffer, Options[j])
    ensures FirstMatch(buffer, Options) == Some(k)
  {
  }
}

=== FILE: rxcmd.dfy ===
/**
 The `rx` command (`cli_cmd_rx`): show the replay statistics, or read the
 frame under the replay cursor and move the cursor by the argument grammar
 `-[n]`, `+[n]`, `.`, `$`, `^`, with a leading `>` to move without reading.
 */
module RxCmd {
  import opened Wrappers
  import opened Base
  import opened Text
  import opened RxLog
  import opened Iface
  import opened Table

  const Half: int := 0x8000_0000

  /**
   The value a 32-bit unsigned sum or difference takes when it is passed on as
   a signed `int`: reduced modulo 2^32 and read as two's complement.
   */
  function ToInt32(v: int): (r: int)
    ensures -Half <= r < Half
    ensures (r - v) % Word == 0
    ensures -Half <= v < Half ==> r == v
  {
    var w := v % Word;
    if w >= Half then w - Word else w
  }

  datatype RxError = NothingToRead | NotAnInterface

  /** What `rx` does: print the statistics, or move (after possibly showing a frame). */
  datatype RxReply =
    | Stats(rx: nat, count: nat, size: nat)
    | Moved(c: Ctx, shown: Option<seq<Byte>>)

  /**
   The interface `rx` works on: the selection, or the receive endpoint of a
   selected tie link when that holds an interface.
   */
  function RxTarget(c: Ctx): (r: Option<nat>)
    requires Valid(c)
    ensures r.Some? ==> IsIfaceAt(c, r.value)
    ensures c.table[c.sel].value.IfaceSlot? ==> r == Some(c.sel)
    ensures c.table[c.sel].value.Exchange? ==> r == None
  {
    match c.table[c.sel].value
    case IfaceSlot(_) => Some(c.sel)
    case Tie(_, rxi) => if IsIfaceAt(c, rxi) then Some(rxi) else None
    case Exchange(_, _) => None
  }

  /** The position of the first non-blank character at or after `pos`. */
  function SkipBlanks(buffer: seq<char>, pos: nat): (r: nat)
    ensures pos <= r
    ensures forall j :: pos <= j < r ==> At(buffer, j) == ' '
    ensures At(buffer, r) != ' '
    decreases |buffer| - pos
  {
    if At(buffer, pos) == ' ' then SkipBlanks(buffer, pos + 1) else pos
  }

  /** The count after `-` or `+`: the `%d` value that follows, or 1. */
  function Count(buffer: seq<char>, pos: nat): int {
    ScanInt(if pos + 1 <= |buffer| then buffer[pos + 1..] else []).GetOr(1)
  }

  /**
   One cursor move selected by the character `ch` (with `x` the count for `-`
   and `+`). The 32-bit unsigned arithmetic of the source is kept: the sum or
   difference is reduced to a signed 32-bit value before it is clamped.
   */
  function Move(m: Meta, ch: char, x: int): (r: Meta)
    ensures r == m.(rx := r.rx, rxLast := r.rxLast)
    ensures ch != '$' && ch != '^' ==> r.rx <= m.rxCount
    ensures ch == '$' ==> r == m.(rx := m.rxCount)
    ensures ch == '^' ==> r == m.(rx := 0)
    ensures ch != '$' && ch != '^' ==> r.rxLast == m.rx
  {
    match ch
    case '-' => RxModify(m, ToInt32(m.rx - x))
    case '.' => RxModify(m, ToInt32(m.rxLast))
    case '+' => RxModify(m, ToInt32(m.rx + x))
    case '$' => m.(rx := m.rxCount)
    case '^' => m.(rx := 0)
    case _ => RxModify(m, ToInt32(m.rx + 1))
  }

  /**
   Replaces the record of the interface in slot `k`; links, the selection and
   every other slot stay as they are.
   */
  function PutMeta(c: Ctx, k: nat, m: Meta): (r: Ctx)
    requires Valid(c) && IsIfaceAt(c, k)
    ensures Valid(r) && IsIfaceAt(r, k)
    ensures IfaceAt(r, k) == IfaceAt(c, k).(m := m)
    ensures r == c.(table := c.table[k := r.table[k]])
    ensures m == IfaceAt(c, k).m ==> r == c
  {
    var r := c.(table := c.table[k := Some(IfaceSlot(IfaceAt(c, k).(m := m)))]);
    assert m == IfaceAt(c, k).m ==> r.table == c.table;
    assert forall j :: 0 <= j < |c.table| ==> (r.table[j].Some? <==> c.table[j].Some?);
    assert forall j :: 0 <= j < |c.table| && c.table[j].Some? ==> LinkOk(c.table, c.table[j].value);
    r
  }

  /**
   The navigation part of `cli_cmd_rx` on one interface with frames: blanks
   after "rx" are skipped; unless the next character is `>` (which is
   consumed), the frame under the cursor is read when the cursor is not at
   the end; then the cursor moves by the next character.
   */
  function Navigate(i: Iface, buffer: seq<char>): (r: (Meta, Option<seq<Byte>>))
    ensures var pos := SkipBlanks(buffer, 2);
            var m := i.m;
            && r.0 == m.(rx := r.0.rx, rxLast := r.0.rxLast)
            && (At(buffer, pos) != '>' && m.rx < m.rxCount ==> r.1 == Read(i.log, m.rx))
            && (At(buffer, pos) == '>' || m.rx >= m.rxCount ==> r.1 == None)
    ensures var pos := SkipBlanks(buffer, 2);
            var next := if At(buffer, pos) == '>' then pos + 1 else pos;
            r.0 == Move(i.m, At(buffer, next), Count(buffer, next))
    ensures Consistent(i) ==> Consistent(i.(m := r.0))
  {
    var m := i.m;
    var pos := SkipBlanks(buffer, 2);
    var shown := if At(buffer, pos) != '>' && m.rx < m.rxCount then Read(i.log, m.rx) else None;
    var next := if At(buffer, pos) == '>' then pos + 1 else pos;
    (Move(m, At(buffer, next), Count(buffer, next)), shown)
  }

  /**
   `cli_cmd_rx` on `buffer`, the whole command line (the argument starts at
   position 2, after "rx"). A `?` there shows the statistics. An interface with
   no frames refuses everything else; otherwise the cursor moves as `Navigate`
   says. Only the target's record changes; its log is read, never written.
   */
  function Rx(c: Ctx, buffer: seq<char>): (r: Result<RxReply, RxError>)
    requires Valid(c)
    ensures RxTarget(c).None? <==> r == Failure(NotAnInterface)
    ensures RxTarget(c).Some? ==>
              var k := RxTarget(c).value;
              var m := IfaceAt(c, k).m;
              && (At(buffer, 2) == '?' <==> r == Success(Stats(m.rx, m.rxCount, m.rxSize)))
              && (At(buffer, 2) != '?' && m.rxCount == 0 <==> r == Failure(NothingToRead))
    ensures r.Success? && r.value.Moved? ==>
              var k := RxTarget(c).value;
              var nav := Navigate(IfaceAt(c, k), buffer);
              && Valid(r.value.c) && IsIfaceAt(r.value.c, k)
              && r.value.c == c.(table := c.table[k := r.value.c.table[k]])
              && IfaceAt(r.value.c, k) == IfaceAt(c, k).(m := nav.0)
              && r.value.shown == nav.1
  {
    match RxTarget(c)
    case None => Failure(NotAnInterface)
    case Some(k) =>
      var i := IfaceAt(c, k);
      if At(buffer, 2) == '?' then Success(Stats(i.m.rx, i.m.rxCount, i.m.rxSize))
      else if i.m.rxCount == 0 then Failure(NothingToRead)
      else
        var nav := Navigate(i, buffer);
        Success(Moved(PutMeta(c, k, nav.0), nav.1))
  }

  /** `rx -n` at the first frame stays there (for counts that fit an `int`). */
  lemma BackFromStartStays(m: Meta, x: int)
    requires m.rx == 0 && 0 <= x <= Half
    ensures Move(m, '-', x).rx == 0 && Move(m, '-', x).rxLast == 0
  {
  }

  /** `+n` moves forward by `n` frames, stopping at the count. */
  lemma ForwardClamps(m: Meta, x: int)
    requires m.rx <= m.rxCount && m.rx + x < Half && 0 <= x
    ensures Move(m, '+', x).rx == if m.rx + x <= m.rxCount then m.rx + x else m.rxCount
  {
  }

  /**
   The sum is 32 bits wide: a forward move that reaches 2^31 reads as a
   negative target and sends the cursor back to the first frame.
   */
  lemma ForwardPastHalfWraps(m: Meta, x: int)
    requires m.rx + x == Half && m.rxCount > 0
    ensures Move(m, '+', x).rx == 0
  {
    assert ToInt32(m.rx + x) == -Half;
  }

  /** `n` plain `rx` commands without argument. */
  function Steps(m: Meta, n: nat): Meta
    decreases n
  {
    if n == 0 then m else Steps(Move(m, Nul, 0), n - 1)
  }

  /**
   Repeated `rx` stops at the count: `n` steps from cursor `rx` end at
   min(rx + n, rxCount), and the count itself never changes.
   */
  lemma {:induction false} StepsSaturate(m: Meta, n: nat)
    requires m.rx <= m.rxCount < Half - 1
    ensures Steps(m, n).rx == if m.rx + n <= m.rxCount then m.rx + n else m.rxCount
    ensures Steps(m, n).rxCount == m.rxCount
    decreases n
  {
    if n > 0 {
      var m1 := Move(m, Nul, 0);
      assert ToInt32(m.rx + 1) == m.rx + 1;
      assert m1.rx == if m.rx + 1 <= m.rxCount then m.rx + 1 else m.rxCount;
      StepsSaturate(m1, n - 1);
    }
  }

  /** `rx .` twice returns to where the cursor was, with the same previous position. */
  lemma DotTwiceRestores(m: Meta, x: int, y: int)
    requires m.rx <= m.rxCount < Half && m.rxLast <= m.rxCount
    ensures Move(Move(m, '.', x), '.', y) == m
  {
  }

  /**
   The frame `rx` shows is the one recorded: on a log built from the frames
   `fs`, a cursor `k` below the count shows `fs[k]`.
   */
  lemma NavigateShowsRecordedFrame(i: Iface, fs: seq<seq<Byte>>, buffer: seq<char>)
    requires i.log == Build(fs) && Sum(fs) < Word && i.m.rx < |fs|
    requires i.m.rxCount == |fs|
    requires At(buffer, SkipBlanks(buffer, 2)) != '>'
    ensures Navigate(i, buffer).1 == Some(fs[i.m.rx])
  {
    LogRoundTrip(fs);
  }

  /** `$` and `^` jump to the last and first frame; after `>` nothing is shown. */
  lemma NavigateJumps(i: Iface)
    ensures Navigate(i, "rx $").0 == i.m.(rx := i.m.rxCount)
    ensures Navigate(i, "rx ^").0 == i.m.(rx := 0)
    ensures Navigate(i, "rx >$").0 == i.m.(rx := i.m.rxCount) && Navigate(i, "rx >$").1 == None
  {
    assert SkipBlanks("rx $", 2) == 3;
    assert SkipBlanks("rx ^", 2) == 3;
    assert SkipBlanks("rx >$", 2) == 3;
  }

  /** A bare `rx` steps one frame forward, stopping at the count. */
  lemma NavigateStep(i: Iface)
    requires i.m.rx <= i.m.rxCount < Half - 1
    ensures Navigate(i, "rx").0
         == i.m.(rx := if i.m.rx < i.m.rxCount then i.m.rx + 1 else i.m.rxCount, rxLast := i.m.rx)
  {
    assert SkipBlanks("rx", 2) == 2;
    assert ToInt32(i.m.rx + 1) == i.m.rx + 1;
  }

  /** `rx -` without a count steps one frame back, stopping at the first. */
  lemma NavigateBack(i: Iface)
    requires i.m.rx <= i.m.rxCount < Half
    ensures Navigate(i, "rx -").0 == i.m.(rx := if i.m.rx > 0 then i.m.rx - 1 else 0, rxLast := i.m.rx)
  {
    assert SkipBlanks("rx -", 2) == 3;
    assert "rx -"[4..] == [];
    assert Count("rx -", 3) == 1;
    assert ToInt32(i.m.rx - 1) == i.m.rx - 1;
  }

  /** `rx +n` moves n frames forward, stopping at the count. */
  lemma NavigatePlus(i: Iface, n: nat)
    requires i.m.rx <= i.m.rxCount && i.m.rx + n < Half
    ensures Navigate(i, "rx +" + Show(n)).0
         == i.m.(rx := if i.m.rx + n <= i.m.rxCount then i.m.rx + n else i.m.rxCount, rxLast := i.m.rx)
  {
    var line := "rx +" + Show(n);
    assert line[2] == ' ' && line[3] == '+';
    assert SkipBlanks(line, 3) == 3;
    assert SkipBlanks(line, 2) == 3;
    assert line[4..] == Show(n);
    ScanShowRoundTrip(n);
    assert Count(line, 3) == n;
    assert ToInt32(i.m.rx + n) == i.m.rx + n;
  }

  /** `rx -n` moves n frames back, stopping at the first. */
  lemma NavigateMinus(i: Iface, n: nat)
    requires i.m.rx <= i.m.rxCount < Half && n <= Half
    ensures Navigate(i, "rx -" + Show(n)).0 == i.m.(rx := if n <= i.m.rx then i.m.rx - n else 0, rxLast := i.m.rx)
  {
    var line := "rx -" + Show(n);
    assert line[2] == ' ' && line[3] == '-';
    assert SkipBlanks(line, 3) == 3;
    assert SkipBlanks(line, 2) == 3;
    assert line[4..] == Show(n);
    ScanShowRoundTrip(n);
    assert Count(line, 3) == n;
    assert ToInt32(i.m.rx - n) == i.m.rx - n;
  }
}

=== FILE: rxlog.dfy ===
/**
 The receive log of one interface: an append-only payload store plus an offset
 index whose entry `i` is the 32-bit cumulative byte count before frame `i`.
 The index starts with a single 0; frame `i` is the payload between offsets `i`
 and `i + 1`.
 */
module RxLog {
  import opened Wrappers
  import opened Base

  datatype Log = Log(offsets: seq<nat>, payload: seq<Byte>)

  /** A freshly created log: the initial offset 0 and no payload. */
  const Initial: Log := Log([0], [])

  function Last(offsets: seq<nat>): nat {
    if |offsets| == 0 then 0 else offsets[|offsets| - 1]
  }

  /**
   Appends a frame. `base` is the interface's running offset; the new offset is
   their sum truncated to 32 bits, as the unsigned counter is.
   */
  function Append(log: Log, base: nat, frame: seq<Byte>): (r: Log)
    ensures |r.offsets| == |log.offsets| + 1 && r.offsets[..|log.offsets|] == log.offsets
    ensures r.payload == log.payload + frame
    ensures base + |frame| < Word ==> Last(r.offsets) == base + |frame|
  {
    Log(log.offsets + [(base + |frame|) % Word], log.payload + frame)
  }

  function Min(a: nat, b: nat): nat {
    if a <= b then a else b
  }

  /**
   Reads frame `i`: two index lookups give the start and end offsets and the
   payload between them is returned (short at the end of the store, as `fread`
   is). None when the index holds no entry `i + 1`.
   */
  function Read(log: Log, i: nat): Option<seq<Byte>> {
    if i + 1 >= |log.offsets| then None
    else
      var start := log.offsets[i];
      var len := (log.offsets[i + 1] - start) % Word;
      var p := log.payload;
      Some(p[Min(start, |p|)..Min(start + len, |p|)])
  }

  // ----- a log built from a list of frames -----

  function Sum(fs: seq<seq<Byte>>): nat {
    if |fs| == 0 then 0 else Sum(fs[..|fs| - 1]) + |fs[|fs| - 1]|
  }

  function Concat(fs: seq<seq<Byte>>): (c: seq<Byte>)
    ensures |c| == Sum(fs)
  {
    if |fs| == 0 then [] else Concat(fs[..|fs| - 1]) + fs[|fs| - 1]
  }

  /** The log after appending `fs` in order to a fresh log. */
  function Build(fs: seq<seq<Byte>>): (r: Log)
    ensures |r.offsets| == |fs| + 1
  {
    if |fs| == 0 then Initial
    else
      var prev := Build(fs[..|fs| - 1]);
      Append(prev, Last(prev.offsets), fs[|fs| - 1])
  }

  lemma {:induction false} SumPrefix(fs: seq<seq<Byte>>, i: nat, j: nat)
    requires i <= j <= |fs|
    ensures Sum(fs[..i]) <= Sum(fs[..j])
    ensures j == i + 1 ==> Sum(fs[..j]) == Sum(fs[..i]) + |fs[i]|
    decreases j
  {
    if i < j {
      assert fs[..j][..j - 1] == fs[..j - 1];
      SumPrefix(fs, i, j - 1);
    }
  }

  lemma {:induction false} ConcatPrefix(fs: seq<seq<Byte>>, i: nat)
    requires i <= |fs|
    ensures Concat(fs[..i]) <= Concat(fs)
    decreases |fs| - i
  {
    if i < |fs| {
      ConcatPrefix(fs, i + 1);
      assert fs[..i + 1][..i] == fs[..i];
      assert Concat(fs[..i + 1]) == Concat(fs[..i]) + fs[i];
    } else {
      assert fs[..i] == fs;
    }
  }

  /** Entry `i` of the built index is the number of bytes in the first `i` frames. */
  lemma {:induction false} BuildOffsets(fs: seq<seq<Byte>>)
    requires Sum(fs) < Word
    ensures forall i :: 0 <= i <= |fs| ==> Build(fs).offsets[i] == Sum(fs[..i])
    ensures Build(fs).payload == Concat(fs)
  {
    if |fs| > 0 {
      var init := fs[..|fs| - 1];
      BuildOffsets(init);
      var prev := Build(init);
      assert Last(prev.offsets) == Sum(init) by {
        assert init[..|init|] == init;
      }
      forall i | 0 <= i <= |fs|
        ensures Build(fs).offsets[i] == Sum(fs[..i])
      {
        if i < |fs| {
          assert fs[..i] == init[..i];
        } else {
          assert fs[..i] == fs;
        }
      }
    } else {
      assert fs[..0] == fs;
    }
  }

  lemma SliceOfPrefix(p: seq<Byte>, a: seq<Byte>, f: seq<Byte>)
    requires a + f <= p
    ensures p[|a|..|a| + |f|] == f
  {
    assert p[..|a| + |f|] == a + f;
    assert p[|a|..|a| + |f|] == (a + f)[|a|..];
  }

  /** Frame `i` of a log laid out as `fs` reads back as `fs[i]`. */
  lemma {:induction false} ReadLaidOut(b: Log, fs: seq<seq<Byte>>, i: nat)
    requires Sum(fs) < Word && i < |fs| && |b.offsets| == |fs| + 1
    requires forall k :: 0 <= k <= |fs| ==> b.offsets[k] == Sum(fs[..k])
    requires b.payload == Concat(fs)
    ensures Read(b, i) == Some(fs[i])
  {
    var st, e := Sum(fs[..i]), Sum(fs[..i + 1]);
    SumPrefix(fs, i, i + 1);
    SumPrefix(fs, i + 1, |fs|);
    assert fs[..|fs|] == fs;
    assert e == st + |fs[i]| && e <= |b.payload|;
    assert b.offsets[i] == st && b.offsets[i + 1] == e;
    assert (e - st) % Word == |fs[i]|;
    assert Read(b, i) == Some(b.payload[st..e]);
    ConcatPrefix(fs, i + 1);
    assert fs[..i + 1][..i] == fs[..i];
    assert Concat(fs[..i + 1]) == Concat(fs[..i]) + fs[i];
    SliceOfPrefix(b.payload, Concat(fs[..i]), fs[i]);
  }

  /**
   Log round trip: after appending `fs` to a fresh log (fewer than 2^32 bytes in
   all), reading frame `i` yields exactly `fs[i]`, the index is non-decreasing,
   and it increases strictly across every non-empty frame.
   */
  lemma LogRoundTrip(fs: seq<seq<Byte>>)
    requires Sum(fs) < Word
    ensures forall i :: 0 <= i < |fs| ==> Read(Build(fs), i) == Some(fs[i])
    ensures forall i, j :: 0 <= i <= j <= |fs| ==> Build(fs).offsets[i] <= Build(fs).offsets[j]
    ensures forall i :: 0 <= i < |fs| ==>
              (Build(fs).offsets[i] < Build(fs).offsets[i + 1] <==> |fs[i]| > 0)
  {
    var b := Build(fs);
    BuildOffsets(fs);
    forall i | 0 <= i < |fs|
      ensures Read(b, i) == Some(fs[i])
      ensures b.offsets[i] < b.offsets[i + 1] <==> |fs[i]| > 0
    {
      ReadLaidOut(b, fs, i);
      SumPrefix(fs, i, i + 1);
    }
    forall i, j | 0 <= i <= j <= |fs|
      ensures b.offsets[i] <= b.offsets[j]
    {
      SumPrefix(fs, i, j);
    }
  }

  /**
   The offset counter is 32 bits wide: once the payload reaches 2^32 bytes the
   next offset falls below its predecessor and the index is no longer monotonic.
   */
  lemma OffsetWraps(log: Log, base: nat, frame: seq<Byte>)
    requires base < Word && |frame| < Word && base + |frame| >= Word
    ensures Last(Append(log, base, frame).offsets) < base
  {
  }
}

=== FILE: table.dfy ===
/**
 The interface table (`cli_ctx.ifs` and `ifsel`): 256 nullable slots, each an
 interface or a tie/exchange link between two slots, plus the selected slot.
 The source stores links in interface-sized records and tells them apart by a
 header character; here a slot is a tagged variant and links name their
 endpoints by slot index.
 */
module Table {
  import opened Wrappers
  import opened Base
  import opened Text
  import opened Iface

  datatype Slot =
    | IfaceSlot(iface: Iface)
    | Tie(txi: nat, rxi: nat)
    | Exchange(txi: nat, rxi: nat)

  datatype LinkKind = TieLink | ExchangeLink

  function MakeLink(kind: LinkKind, txi: nat, rxi: nat): (s: Slot)
    ensures !s.IfaceSlot? && s.txi == txi && s.rxi == rxi
  {
    match kind
    case TieLink => Tie(txi, rxi)
    case ExchangeLink => Exchange(txi, rxi)
  }

  /**
   The shared context: the table, the selected slot, the console flags (echo),
   whether the session is exiting, and the redraw counter the capture loop
   increments for asynchronous display.
   */
  datatype Ctx = Ctx(table: seq<Option<Slot>>, sel: nat, flags: bv32, exiting: bool, irq: nat)

  predicate IsIfaceAt(c: Ctx, k: nat) {
    k < |c.table| && c.table[k].Some? && c.table[k].value.IfaceSlot?
  }

  function IfaceAt(c: Ctx, k: nat): Iface
    requires IsIfaceAt(c, k)
  {
    c.table[k].value.iface
  }

  /** A link's endpoints are in range, distinct and occupied. */
  predicate LinkOk(t: seq<Option<Slot>>, s: Slot) {
    !s.IfaceSlot? ==>
      && s.txi < |t| && s.rxi < |t| && s.txi != s.rxi
      && t[s.txi].Some? && t[s.rxi].Some?
  }

  /**
   The table invariant every operation keeps: 256 slots, the selection names an
   occupied slot, and every link was created between two distinct occupied slots
   (slots are never freed while the session runs).
   */
  predicate Valid(c: Ctx) {
    && |c.table| == TableSize
    && c.sel < TableSize && c.table[c.sel].Some?
    && forall i :: 0 <= i < |c.table| && c.table[i].Some? ==> LinkOk(c.table, c.table[i].value)
  }

  /** The scan of `find_free_if_spot` from slot `i` on. */
  function FreeFrom(t: seq<Option<Slot>>, i: nat): (r: nat)
    requires i <= |t|
    ensures i <= r <= |t|
    ensures r < |t| ==> t[r].None?
    ensures forall j :: i <= j < r ==> t[j].Some?
    decreases |t| - i
  {
    if i == |t| then |t| else if t[i].None? then i else FreeFrom(t, i + 1)
  }

  /** `find_free_if_spot`: the lowest empty slot, or the table size when all are full. */
  function FindFree(t: seq<Option<Slot>>): (r: nat)
    ensures r <= |t|
    ensures r < |t| ==> t[r].None?
    ensures forall j :: 0 <= j < r ==> t[j].Some?
  {
    FreeFrom(t, 0)
  }

  /** `k` is the lowest empty slot of `t`. */
  predicate LowestFree(t: seq<Option<Slot>>, k: nat) {
    k < |t| && t[k].None? && forall j :: 0 <= j < k ==> t[j].Some?
  }

  predicate Full(t: seq<Option<Slot>>) {
    forall j :: 0 <= j < |t| ==> t[j].Some?
  }

  lemma LowestFreeUnique(t: seq<Option<Slot>>, k: nat)
    requires LowestFree(t, k)
    ensures FindFree(t) == k
  {
  }

  /**
   `cli_cmd_add`: a fresh file interface goes into the lowest empty slot, gets
   that slot's number as its id and becomes the selection; a full table is left
   as it was.
   */
  function Add(c: Ctx): (r: Ctx)
    ensures Full(c.table) ==> r == c
    ensures forall k: nat :: LowestFree(c.table, k) ==>
              r == c.(table := c.table[k := Some(IfaceSlot(Fresh(k)))], sel := k)
    ensures Valid(c) ==> Valid(r)
  {
    var i := FindFree(c.table);
    if i < |c.table| then
      var r := c.(table := c.table[i := Some(IfaceSlot(Fresh(i)))], sel := i);
      assert forall k: nat :: LowestFree(c.table, k) ==> k == i;
      assert Valid(c) ==> Valid(r) by {
        if Valid(c) {
          forall j | 0 <= j < |r.table| && r.table[j].Some?
            ensures LinkOk(r.table, r.table[j].value)
          {
            if j != i {
              assert LinkOk(c.table, c.table[j].value);
            }
          }
        }
      }
      r
    else
      c
  }

  /** After an `add`, the selection resolves to the new interface, whose id is its slot. */
  lemma AddSelectsNewInterface(c: Ctx)
    requires !Full(c.table)
    ensures IsIfaceAt(Add(c), Add(c).sel)
    ensures IfaceAt(Add(c), Add(c).sel) == Fresh(Add(c).sel)
    ensures c.table[Add(c).sel].None?
  {
    var k := FindFree(c.table);
    assert LowestFree(c.table, k);
  }

  /** The empty table `cli_ctx_init` starts from, followed by its first `add`. */
  function Init(): (c: Ctx)
    ensures Valid(c) && c.sel == 0 && IsIfaceAt(c, 0) && IfaceAt(c, 0) == Fresh(0)
  {
    var empty := Ctx(seq(TableSize, _ => None), 0, 0, false, 0);
    assert LowestFree(empty.table, 0);
    Add(empty).(sel := 0)
  }

  datatype LinkResult = LinkResult(ok: bool, c: Ctx)

  /**
   `cli_add_line`: a link between two occupied, distinct slots goes into the
   lowest empty slot and the result is 1; otherwise the result is 0 and the
   table is unchanged. The selection never changes. Endpoints may themselves be
   links. The source does not bound the endpoint indices; they are required to
   lie in the table here.
   */
  function AddLine(c: Ctx, kind: LinkKind, txi: nat, rxi: nat): (r: LinkResult)
    requires |c.table| == TableSize && txi < TableSize && rxi < TableSize
    ensures r.ok <==> c.table[txi].Some? && c.table[rxi].Some? && txi != rxi && !Full(c.table)
    ensures !r.ok ==> r.c == c
    ensures forall k: nat :: r.ok && LowestFree(c.table, k) ==>
              r.c == c.(table := c.table[k := Some(MakeLink(kind, txi, rxi))])
    ensures Valid(c) ==> Valid(r.c)
  {
    if c.table[txi].Some? && c.table[rxi].Some? && txi != rxi then
      var i := FindFree(c.table);
      if i < |c.table| then
        var t := c.table[i := Some(MakeLink(kind, txi, rxi))];
        var r := c.(table := t);
        assert forall k: nat :: LowestFree(c.table, k) ==> k == i;
        assert Valid(c) ==> Valid(r) by {
          if Valid(c) {
            forall j | 0 <= j < |t| && t[j].Some?
              ensures LinkOk(t, t[j].value)
            {
              if j != i {
                assert LinkOk(c.table, c.table[j].value);
              }
            }
          }
        }
        LinkResult(true, r)
      else
        LinkResult(false, c)
    else
      LinkResult(false, c)
  }

  /** The source accepts a link whose endpoint is another link. */
  lemma LinkEndpointMayBeLink(c: Ctx, kind: LinkKind, txi: nat, rxi: nat)
    requires |c.table| == TableSize && txi < TableSize && rxi < TableSize && txi != rxi
    requires c.table[txi].Some? && !c.table[txi].value.IfaceSlot?
    requires c.table[rxi].Some? && !Full(c.table)
    ensures AddLine(c, kind, txi, rxi).ok
  {
  }

  datatype CdError = InvalidSlot

  /**
   `cli_cmd_cd`: selects an occupied slot; an empty slot is refused and nothing
   changes. The source does not bound the index; it is required to lie in the
   table here.
   */
  function Select(c: Ctx, i: int): (r: Result<Ctx, CdError>)
    requires 0 <= i < |c.table|
    ensures r.Success? <==> c.table[i].Some?
    ensures r.Success? ==> r.value == c.(sel := i)
    ensures Valid(c) && r.Success? ==> Valid(r.value)
  {
    if c.table[i].None? then Failure(InvalidSlot) else Success(c.(sel := i))
  }

  // ----- reload -----

  predicate IsHexDigit(ch: char) {
    ('0' <= ch <= '9') || ('a' <= ch <= 'f') || ('A' <= ch <= 'F')
  }

  function HexCharValue(ch: char): nat
    requires IsHexDigit(ch)
  {
    if '0' <= ch <= '9' then ch as int - '0' as int
    else if 'a' <= ch <= 'f' then ch as int - 'a' as int + 10
    else ch as int - 'A' as int + 10
  }

  /** The first white-space-delimited word of `s`, as `%s` reads it. */
  function NameWord(s: seq<char>): (w: seq<char>)
    ensures forall k :: 0 <= k < |w| ==> !IsSpace(w[k])
    decreases |s|
  {
    if |s| == 0 then []
    else if IsSpace(s[0]) then NameWord(s[1..])
    else WordRun(s)
  }

  function WordRun(s: seq<char>): (w: seq<char>)
    ensures forall k :: 0 <= k < |w| ==> !IsSpace(w[k])
  {
    if |s| == 0 || IsSpace(s[0]) then [] else [s[0]] + WordRun(s[1..])
  }

  /**
   `sscanf(name, "if%02x-%s", &x, tmp) == 2`: "if", one or two hex digits,
   "-" and a non-empty word. Yields the slot number and the word.
   */
  function ParseLogFileName(name: seq<char>): (r: Option<(nat, seq<char>)>)
    ensures r.Some? ==> r.value.0 < TableSize && |r.value.1| > 0
    ensures r.Some? ==> StartsWith(name, "if") && |name| >= 4
  {
    if !StartsWith(name, "if") || |name| < 3 || !IsHexDigit(name[2]) then None
    else
      var two := |name| > 3 && IsHexDigit(name[3]);
      var x := if two then HexCharValue(name[2]) * 16 + HexCharValue(name[3]) else HexCharValue(name[2]);
      var p := if two then 4 else 3;
      if p >= |name| || name[p] != '-' then None
      else
        var w := NameWord(name[p + 1..]);
        if |w| == 0 then None else Some((x, w))
  }

  /**
   `cli_ctx_reload_iface`: for an offset file (a name whose word does not start
   with 'b'), slot `x` receives the interface rebuilt from its files (`disk`);
   any other name leaves the table unchanged.
   */
  function ReloadIface(c: Ctx, name: seq<char>, disk: Iface): (r: Ctx)
    ensures match ParseLogFileName(name)
            case Some((x, w)) =>
              if w[0] != 'b' && x < |c.table|
              then r == c.(table := c.table[x := Some(IfaceSlot(Reloaded(disk)))])
              else r == c
            case None => r == c
    ensures Valid(c) ==> Valid(r)
  {
    match ParseLogFileName(name)
    case Some((x, w)) =>
      if w[0] != 'b' && x < |c.table| then
        var r := c.(table := c.table[x := Some(IfaceSlot(Reloaded(disk)))]);
        assert Valid(c) ==> Valid(r) by {
          if Valid(c) {
            forall j | 0 <= j < |r.table| && r.table[j].Some?
              ensures LinkOk(r.table, r.table[j].value)
            {
              if j != x {
                assert LinkOk(c.table, c.table[j].value);
              }
            }
          }
        }
        r
      else c
    case None => c
  }

  /** A word without white space is read whole by `%s`. */
  lemma {:induction false} WordRunWhole(s: seq<char>)
    requires forall k :: 0 <= k < |s| ==> !IsSpace(s[k])
    ensures WordRun(s) == s
    ensures |s| > 0 ==> NameWord(s) == s
  {
    if |s| > 0 {
      WordRunWhole(s[1..]);
    }
  }

  /** The offset file of slot 0x0a names slot 10; its buffer file is skipped. */
  lemma ParseExample()
    ensures ParseLogFileName("if0a-offset") == Some((10, "offset"))
    ensures ParseLogFileName("if0a-buffer") == Some((10, "buffer"))
  {
    assert "if0a-offset"[5..] == "offset";
    WordRunWhole("offset");
    assert "if0a-buffer"[5..] == "buffer";
    WordRunWhole("buffer");
  }

  /** One lowercase hexadecimal digit, as `%x` prints it. */
  function LowerHexChar(d: nat): (ch: char)
    requires d < 16
    ensures IsHexDigit(ch) && HexCharValue(ch) == d
    ensures ch != '-' && !IsSpace(ch)
  {
    if d < 10 then ('0' as int + d) as char else ('a' as int + d - 10) as char
  }

  /** `sprintf("if%02x-%s", i, word)`: the name `cli_cmd_add` gives a slot's files. */
  function LogFileName(x: nat, word: seq<char>): seq<char>
    requires x < 256
  {
    "if" + [LowerHexChar(x / 16), LowerHexChar(x % 16)] + "-" + word
  }

  /**
   Every name the add command writes reads back as the slot it was written
   for and the word after the dash.
   */
  lemma ParseLogFileNameRoundTrip(x: nat, word: seq<char>)
    requires x < 256 && |word| > 0
    requires forall k :: 0 <= k < |word| ==> !IsSpace(word[k])
    ensures ParseLogFileName(LogFileName(x, word)) == Some((x, word))
  {
    var name := LogFileName(x, word);
    assert name[..2] == "if";
    assert name[2] == LowerHexChar(x / 16) && name[3] == LowerHexChar(x % 16);
    assert name[4] == '-';
    assert name[5..] == word;
    WordRunWhole(word);
  }

  lemma ReloadExample(c: Ctx, disk: Iface)
    requires |c.table| == TableSize
    ensures ReloadIface(c, "if0a-buffer", disk) == c
    ensures IsIfaceAt(ReloadIface(c, "if0a-offset", disk), 10)
  {
    ParseExample();
  }

  // ----- the capture loop's view of the table -----

  /** The capture loop polls slot `i`: an active interface of type tcp, udp or serial. */
  predicate Polled(c: Ctx, i: nat) {
    IsIfaceAt(c, i) && IsFdType(IfaceAt(c, i).m.itype) && IfaceAt(c, i).m.active
  }

  function PolledSlots(c: Ctx): (s: set<nat>)
    ensures forall i :: i in s <==> (IsIfaceAt(c, i) && IfaceAt(c, i).m.active &&
                                     IfaceAt(c, i).m.itype in {Tcp, Udp, Serial})
  {
    set i | 0 <= i < |c.table| && Polled(c, i)
  }

  /**
   The selected slot is an exchange link whose receive endpoint is `k`: a frame
   received on `k` is forwarded.
   */
  predicate Armed(c: Ctx, k: nat) {
    c.sel < |c.table| && c.table[c.sel].Some? && c.table[c.sel].value.Exchange?
    && c.table[c.sel].value.rxi == k
  }
}

=== FILE: text.dfy ===
/**
 Character-level helpers of the command interpreter: the C character classes,
 prefix matching of command names (`cli_command`), decimal parsing in the manner
 of `sscanf("%d")` / `atoi`, and the control-character stripping applied to every
 command line (`cli_stripchars`).
 */
module Text {
  import opened Wrappers
  import opened Base

  const Nul: char := 0 as char

  /** `iscntrl` in the C locale. */
  predicate IsCntrl(c: char) {
    c as int < 32 || c as int == 127
  }

  /** `isprint` in the C locale. */
  predicate IsPrint(c: int) {
    32 <= c <= 126
  }

  predicate IsSpace(c: char) {
    c == ' ' || c == '\t' || c == '\n' || c == '\r' || c as int == 11 || c as int == 12
  }

  predicate IsDigit(c: char) {
    '0' <= c <= '9'
  }

  /** `strncmp(s, p, strlen(p)) == 0` for a pattern `p` without NUL characters. */
  predicate StartsWith(s: seq<char>, p: seq<char>) {
    |p| <= |s| && s[..|p|] == p
  }

  /** The character at `i`, or NUL past the end of the buffer. */
  function At(s: seq<char>, i: nat): char {
    if i < |s| then s[i] else Nul
  }

  function Zeros(n: nat): (z: seq<char>)
    ensures |z| == n
    ensures forall k :: 0 <= k < n ==> z[k] == Nul
  {
    seq(n, _ => Nul)
  }

  /** `cli_command`: the index of the first option whose name is a prefix of `buffer`. */
  function FirstMatch(buffer: seq<char>, names: seq<seq<char>>): (r: Option<nat>)
    ensures r.Some? ==> r.value < |names| && StartsWith(buffer, names[r.value])
    ensures r.Some? ==> forall k :: 0 <= k < r.value ==> !StartsWith(buffer, names[k])
    ensures r.None? <==> forall k :: 0 <= k < |names| ==> !StartsWith(buffer, names[k])
    decreases |names|
  {
    if |names| == 0 then None
    else if StartsWith(buffer, names[0]) then Some(0)
    else
      match FirstMatch(buffer, names[1..])
      case None => None
      case Some(i) => Some(i + 1)
  }

  /** `cli_command` returns 1 exactly when some option name is a prefix of the buffer. */
  function Command(buffer: seq<char>, names: seq<seq<char>>): (ret: int)
    ensures ret == 1 <==> exists k :: 0 <= k < |names| && StartsWith(buffer, names[k])
    ensures ret == 0 || ret == 1
  {
    if FirstMatch(buffer, names).Some? then 1 else 0
  }

  // ----- decimal numbers -----

  function DigitValue(c: char): nat
    requires IsDigit(c)
  {
    c as int - '0' as int
  }

  /** Length of the run of decimal digits at the start of `s`. */
  function DigitRun(s: seq<char>): (n: nat)
    ensures n <= |s|
    ensures forall k :: 0 <= k < n ==> IsDigit(s[k])
    ensures n < |s| ==> !IsDigit(s[n])
  {
    if |s| == 0 || !IsDigit(s[0]) then 0 else 1 + DigitRun(s[1..])
  }

  /** The value of a string of decimal digits. */
  function Value(d: seq<char>): nat
    requires forall k :: 0 <= k < |d| ==> IsDigit(d[k])
  {
    if |d| == 0 then 0 else 10 * Value(d[..|d| - 1]) + DigitValue(d[|d| - 1])
  }

  function SkipSpace(s: seq<char>): (i: nat)
    ensures i <= |s|
    ensures forall k :: 0 <= k < i ==> IsSpace(s[k])
    ensures i < |s| ==> !IsSpace(s[i])
  {
    if |s| == 0 || !IsSpace(s[0]) then 0 else 1 + SkipSpace(s[1..])
  }

  /**
   One `%d` conversion of `sscanf`: leading white space, an optional sign and at
   least one digit. None when the conversion fails. The value is unbounded.
   */
  function ScanInt(s: seq<char>): (r: Option<int>)
    ensures r.Some? ==> exists k :: 0 <= k < |s| && IsDigit(s[k])
  {
    var i := SkipSpace(s);
    var neg := i < |s| && s[i] == '-';
    var j := if i < |s| && (s[i] == '-' || s[i] == '+') then i + 1 else i;
    var n := DigitRun(s[j..]);
    if n == 0 then None
    else
      assert IsDigit(s[j..][0]);
      var v: int := Value(s[j..][..n]);
      Some(if neg then -v else v)
  }

  /** Where a successful `%d` conversion stops: just after its last digit. */
  function ScanEnd(s: seq<char>): (e: nat)
    ensures e <= |s|
  {
    var i := SkipSpace(s);
    var j := if i < |s| && (s[i] == '-' || s[i] == '+') then i + 1 else i;
    j + DigitRun(s[j..])
  }

  /** `sscanf(s, "%d %d")`: two conversions, the second after the first one's digits. */
  function ScanTwo(s: seq<char>): (r: Option<(int, int)>)
    ensures r.Some? <==> ScanInt(s).Some? && ScanInt(s[ScanEnd(s)..]).Some?
    ensures r.Some? ==> r.value.0 == ScanInt(s).value
  {
    match ScanInt(s)
    case None => None
    case Some(a) =>
      match ScanInt(s[ScanEnd(s)..])
      case None => None
      case Some(b) => Some((a, b))
  }

  /** `atoi`: the `%d` value, or 0 when there is none. */
  function Atoi(s: seq<char>): int {
    ScanInt(s).GetOr(0)
  }

  /** Decimal rendering of a natural number, the inverse of `ScanInt`. */
  function Show(n: nat): (d: seq<char>)
    ensures |d| > 0
    ensures forall k :: 0 <= k < |d| ==> IsDigit(d[k])
  {
    var last := ('0' as int + n % 10) as char;
    if n < 10 then [last] else Show(n / 10) + [last]
  }

  lemma {:induction false} ValueOfShow(n: nat)
    ensures Value(Show(n)) == n
  {
    var d := Show(n);
    if n >= 10 {
      assert d[..|d| - 1] == Show(n / 10);
      ValueOfShow(n / 10);
    }
  }

  /** The digit run of a digit string followed by a non-digit is the whole string. */
  lemma {:induction false} DigitRunAll(d: seq<char>, rest: seq<char>)
    requires forall k :: 0 <= k < |d| ==> IsDigit(d[k])
    requires |rest| == 0 || !IsDigit(rest[0])
    ensures DigitRun(d + rest) == |d|
    decreases |d|
  {
    if |d| == 0 {
      assert d + rest == rest;
    } else {
      var s := d + rest;
      assert s[0] == d[0] && IsDigit(s[0]);
      assert s[1..] == d[1..] + rest;
      DigitRunAll(d[1..], rest);
      assert DigitRun(s) == 1 + DigitRun(s[1..]);
    }
  }

  /** Printing a number and scanning it back yields the number, with either sign. */
  lemma ScanShowRoundTrip(n: nat)
    ensures ScanInt(Show(n)) == Some(n)
    ensures ScanInt(['-'] + Show(n)) == Some(-(n as int))
  {
    var d := Show(n);
    DigitRunAll(d, []);
    assert d + [] == d;
    ValueOfShow(n);
    assert d[0..] == d;
    assert d[..|d|] == d;
    var m := ['-'] + d;
    assert m[1..] == d + [];
    assert !IsDigit(d[0]) ==> false;
    assert SkipSpace(m) == 0;
  }

  // ----- control-character stripping -----

  /** The characters of `s` that are not control characters, in order. */
  function Kept(s: seq<char>): (k: seq<char>)
    ensures |k| <= |s|
    ensures forall i :: 0 <= i < |k| ==> !IsCntrl(k[i])
  {
    if |s| == 0 then []
    else Kept(s[..|s| - 1]) + (if IsCntrl(s[|s| - 1]) then [] else [s[|s| - 1]])
  }

  lemma {:induction false} KeptIdentity(s: seq<char>)
    ensures Kept(s) == s <==> forall i :: 0 <= i < |s| ==> !IsCntrl(s[i])
  {
    if |s| > 0 {
      KeptIdentity(s[..|s| - 1]);
      if IsCntrl(s[|s| - 1]) {
        assert |Kept(s)| < |s|;
      }
    }
  }

  /**
   `cli_stripchars`: the first 256 characters of the command buffer are replaced
   by their non-control characters, moved to the front and NUL-padded; `j` is how
   many were kept.
   */
  method Strip(buf: seq<char>) returns (r: seq<char>, j: nat)
    requires |buf| >= DefaultBuffer
    ensures |r| == |buf| && j <= DefaultBuffer
    ensures r[..j] == Kept(buf[..DefaultBuffer])
    ensures forall k :: j <= k < DefaultBuffer ==> r[k] == Nul
    ensures r[DefaultBuffer..] == buf[DefaultBuffer..]
  {
    var swap := Zeros(DefaultBuffer);
    j := 0;
    var i := 0;
    while i < DefaultBuffer
      invariant 0 <= j <= i <= DefaultBuffer
      invariant |swap| == DefaultBuffer
      invariant swap[..j] == Kept(buf[..i])
      invariant forall k :: j <= k < DefaultBuffer ==> swap[k] == Nul
    {
      assert buf[..i + 1][..i] == buf[..i];
      if !IsCntrl(buf[i]) {
        swap := swap[j := buf[i]];
        j := j + 1;
      }
      i := i + 1;
    }
    r := swap + buf[DefaultBuffer..];
    assert r[..j] == swap[..j];
  }
}

=== FILE: wrappers.dfy ===
/** Result types shared by every module of the model. */
module Wrappers {

  datatype Option<+T> = None | Some(value: T) {
    function GetOr(default: T): T {
      match this
      case Some(v) => v
      case None => default
    }
  }

  datatype Result<+R, +E> = Success(value: R) | Failure(error: E)
}
